=== FILE: README.md ===
# data-utils: a Dafny model of the climate-data core

This project models the decision-making core of `data-utils`, a Python toolkit for gridded climate data. It covers five pieces of code and proves properties about each of them:

- **Percentile conversion** (`values_to_ptiles`). Each observation becomes a percentile of its location's climatology. A fixed cascade of branches decides how: NaN, exact knot match, upper saturation, upper tail, lower saturation, lower tail, interior bracket, and a NaN fallback. Two estimated end points, the 0th and 100th percentiles, are extrapolated with a tail ratio `k`.
- **Probability of exceedance (POE)**, in `mpp/poe.py`:
  - the part of `make_poe` that runs after the density is built: `1 - cumsum / max(cumsum)` and the selection of rows at the requested percentiles;
  - `poe_to_terciles`, which turns POE rows at the 33rd and 67th percentiles into below-, near- and above-normal probabilities.
- **The `Grid` descriptor**. It takes a built-in grid name or a custom spec (corners and resolution) and derives the point counts by truncation.
- **`stack_grids`**, in its current version (mask, or a NaN fallback) and its older version (mask only).
- **Plotting decisions**:
  - `_put_terciles_in_one_array`, which collapses tercile probabilities into one signed value per cell;
  - the `_get_colors` colour tables;
  - the region, range, projection and colour-bar checks of `_make_plot`.

NumPy arrays are modelled as follows:

- Values are sequences of `Float = Option<real>`, with `None` standing for NaN.
- Every ordering comparison and every equality test involving NaN is false (so `!=` is true), as in IEEE arithmetic.
- Arrays whose dimension is checked are `NdArray(shape, data)`, with the data in row-major order.
- Arithmetic is exact real arithmetic.

Modules:

| file | module | contents |
|---|---|---|
| common.dfy | Common | `Option`, `Result`, `Float`, NaN-aware comparisons, Python negative indexing |
| arith.dfy | RealArith | small real-arithmetic facts the other proofs use |
| bisect.dfy | Bisect | `bisect.bisect_right` as the binary search it is, and its meaning on sorted input |
| stats.dfy | Stats | `values_to_ptiles`: validation, the per-location branch cascade, one lemma per branch |
| ptile_order.dfy | PtileOrder | bounds and monotonicity of the conversion over a regular climatology: a sorted, NaN-free column, ascending reference percentiles within `[0, 1]`, and `k >= 1` (`Stats.Regular`) |
| stats_examples.dfy | StatsExamples | the documented example of `values_to_ptiles`, location by location |
| nearest.dfy | Nearest | the nearest-index lookup used by the POE code |
| poe.dfy | Poe | POE normalisation, row selection, tercile extraction |
| grid.dfy | Grids | built-in grids, custom specs, point counts |
| merging.dfy | Merging | both versions of `stack_grids` |
| plotting.dfy | Plotting | tercile categorisation, colour tables, plot-argument checks |

## Model

| member | source | states |
|---|---|---|
| Bisect.BisectRight | data_utils/stats.py:86 | the bisect index `r` splits the sequence: the entry before `r` is not above `x`, and the entry at `r` is above `x` |
| Bisect.BisectRangeBrackets | data_utils/stats.py:128-133 | if the search window starts bracketed, every result of the binary search stays bracketed |
| Bisect.CountAtMostSplit | data_utils/stats.py:128-133 | the count of entries not above `x` equals any split point with everything before it `<= x` and everything after `> x` |
| Bisect.BisectRightSorted | data_utils/stats.py:128-133 | on an ascending column, bisect returns the count of entries `<= x` |
| Stats.Column | data_utils/stats.py:137 | `climo[:, loc]` has one entry per reference percentile, and entry `i` is `climo[i, loc]` |
| Stats.MidIndex | data_utils/stats.py:86 | the index is always a valid row; for ascending reference percentiles, the median row is the last one `<= 0.5`, and when all lie above 0.5 the index `-1` wraps to the last row |
| Stats.Extrapolate | data_utils/stats.py:109-126 | an estimated end point is NaN exactly when a row it uses is NaN; otherwise its distance from the median is `k` times the row's |
| Stats.P100 | data_utils/stats.py:109-111 | the estimated 100th percentile is NaN exactly when the last or the median row is NaN; otherwise it lies `k` times the last row's distance from the median; `Stats.TailEstimatesEnclose` shows it is not below the last value for `k >= 1` |
| Stats.P0 | data_utils/stats.py:119-121 | the estimated 0th percentile is NaN exactly when the first or the median row is NaN; otherwise it lies `k` times the first row's distance from the median; `Stats.TailEstimatesEnclose` shows it is not above the first value for `k >= 1` |
| Stats.FirstIndexOf | data_utils/stats.py:104-107 | the first row holding the value: it holds it and no earlier row does |
| Stats.UpperTailValue | data_utils/stats.py:113-117 | the upper-tail formula adds to `ref[last]` the fraction of the way from the last value to the 100th estimate, times `1 - ref[last]`; it lies strictly between `ref[last]` and 1 when `ref[last] < 1`, and is exactly 1 when `ref[last] == 1` |
| Stats.LowerTailValue | data_utils/stats.py:123-126 | the lower-tail formula scales `ref[0]` by the fraction of the way from the 0th estimate to the first value; it lies within `[0, ref[0]]` when `ref[0] >= 0`, strictly inside when `ref[0] > 0` |
| Stats.BracketValue | data_utils/stats.py:128-133 | the result is the linear interpolation: `(v, r)` lies on the line through `(lo, rlo)` and `(hi, rhi)`, i.e. `(r - rlo) * (hi - lo) == (rhi - rlo) * (v - lo)`; when `rlo <= rhi` it lies in `[rlo, rhi]`, strictly inside when `rlo < rhi` |
| Stats.Interpolate | data_utils/stats.py:128-136 | the interior bisect index is in `[1, n-1]`, so neither the wrapped row `-1` nor a row past the end is read; the rows bracket the observation; NaN exactly when the lower row is NaN |
| Stats.PtileAt | data_utils/stats.py:97-136 | a NaN observation gives NaN; an observation equal to a climatology value gives one of the reference percentiles |
| Stats.ValuesToPtiles | data_utils/stats.py:70-140 | each shape error is reported exactly when its check fails and the earlier checks pass, before any location is converted; then, with an empty percentile table, any non-NaN observation makes the conversion fail; otherwise the output has one entry per observation, in order, each converted against its own column |
| Stats.LocationsIndependent | data_utils/stats.py:99-102 | changing one observation leaves every other location's result unchanged; a NaN observation gives NaN where it stands |
| Stats.KnotLookup | data_utils/stats.py:104-107 | a value equal to a climatology entry takes the percentile of the first such row, ahead of every other branch |
| Stats.SaturatesHigh | data_utils/stats.py:109-111 | an unmatched observation at or above the estimated 100th percentile gets exactly 1 |
| Stats.UpperTail | data_utils/stats.py:113-117 | between the last climatology value and the estimated 100th percentile, the result is the upper-tail value, which lies strictly between `ref[last]` and 1 when `ref[last] < 1` |
| Stats.NanEndsFallThrough | data_utils/stats.py:135-136 | with NaN in the first and last rows, every unmatched observation falls through to NaN |
| Stats.TailEstimatesEnclose | data_utils/stats.py:109-126 | for `k >= 1` and a sorted column, the 0th and 100th estimates enclose the sampled range |
| Stats.SaturatesLow | data_utils/stats.py:119-121 | for a sorted column with no NaN and any `k > 0`, an unmatched observation at or below the estimated 0th percentile gets exactly 0; for `k < 1` this includes observations inside the sampled range |
| Stats.LowerTail | data_utils/stats.py:123-126 | for a sorted column with no NaN, `k >= 1` and ascending reference percentiles within `[0, 1]`: between the estimated 0th percentile and the first value, the result is the lower-tail value, within `[0, ref[0]]` |
| Stats.Interior | data_utils/stats.py:128-133 | for a sorted column with no NaN, `k >= 1` and ascending reference percentiles within `[0, 1]`: strictly inside the sampled range, `j` is the count of values `<= obs`; `col[j-1] < obs < col[j]`; the result is `BracketValue` of the two rows, the linear interpolation between `(col[j-1], ref[j-1])` and `(col[j], ref[j])`, and lies in `[ref[j-1], ref[j]]` |
| PtileOrder.RegularBounds | data_utils/stats.py:97-136 | for a sorted, NaN-free column, ascending reference percentiles within `[0, 1]`, and `k >= 1`, every percentile is a number in `[0, 1]` that lies between the percentiles of the knots around the observation |
| PtileOrder.Monotone | data_utils/stats.py:97-136 | for a sorted, NaN-free column, ascending reference percentiles within `[0, 1]`, and `k >= 1`, a larger observation never gets a smaller percentile, and neither percentile is NaN |
| PtileOrder.SmallTailRatioBreaksOrder | data_utils/stats.py:119-121 | with `k = 0.5` the estimated 0th percentile falls inside the sampled range, and monotonicity fails |
| StatsExamples.LowerTailExample | data_utils/stats.py:45-62 | location 0 of the documented example: 14.9 lands in the lower tail at about 0.0835 |
| StatsExamples.NanMedianExample | data_utils/stats.py:45-62 | location 1: a NaN median row makes both estimates NaN, so 21.1 skips the tail branches and takes the interior branch; bisect gives 5, the lower bracket row 4 is the NaN row, and the interpolation yields NaN |
| StatsExamples.SaturationExample | data_utils/stats.py:45-62 | location 2: 30.2 is past the estimated 100th percentile and saturates at 1 |
| StatsExamples.UpperTailExample | data_utils/stats.py:45-62 | location 3: 28.4 lands in the upper tail at about 0.93285 |
| StatsExamples.LowSaturationExample | data_utils/stats.py:45-62 | location 4: 12.12 is below the estimated 0th percentile and gets 0 |
| StatsExamples.DocumentedExample | data_utils/stats.py:45-62 | the whole documented call returns `[0.0835, nan, 1.0, 0.93285, 0.0]` (exact rationals) |
| Nearest.NearestIndex | mpp/poe.py:89-90 | the lookup returns a closest entry, and every earlier entry is strictly farther |
| Nearest.LandsOnTarget | mpp/poe.py:157-158 | when the target is present, the lookup returns its first occurrence |
| Nearest.NearestMonotone | mpp/poe.py:89-90 | on an ascending axis, a larger target never moves the lookup to an earlier position |
| Poe.CumSum | mpp/poe.py:81 | `numpy.cumsum`: one entry per density value, entry `i` being the sum of the first `i+1` densities (built by `Poe.CumSumUpTo`) |
| Poe.CumSumUpTo | mpp/poe.py:81-82 | the cumulative sum: entry `i` is the sum of the first `i+1` densities |
| Poe.MaxOf | mpp/poe.py:81-82 | the maximum is one of the entries and no entry exceeds it |
| Poe.RunningMonotone | mpp/poe.py:81-82 | partial sums of a non-negative density never decrease |
| Poe.MaxOfCumSum | mpp/poe.py:81-82 | for a non-negative density, the maximum of the cumulative sum is the total |
| Poe.XGrid | mpp/poe.py:55-62 | the standardised x axis has 1000 ascending points from -4 to 4 |
| Poe.FinalPoeColumn | mpp/poe.py:81-82 | with a positive total, entry `i` is one minus the share of the density up to `x[i]`; an all-zero density gives NaN throughout |
| Poe.PoeCurveShape | mpp/poe.py:81-82 | a density with positive total gives a POE curve with no NaN, in `[0, 1]`, non-increasing along x, and ending at exactly 0 |
| Poe.PoeCell | mpp/poe.py:82 | `final_poe[k, g]`: for a positive density total, one minus the share of location `g`'s density up to and including x index `k`; NaN for a zero total (`Poe.PoeCurveShape` gives the curve's shape) |
| Poe.SelectPoeRows | mpp/poe.py:87-92 | the output has one row per percentile and one column per location, and `output[i][g]` is the POE curve of location `g` at the chosen index |
| Poe.PtileIndexes | mpp/poe.py:89-90 | each chosen index is a closest point on the x axis to its quantile |
| Poe.MakePoe | mpp/poe.py:81-92 | one row per requested percentile and one column per location; `output[i][g]` is `final_poe` of location `g` at the x index closest to the `i`-th quantile |
| Poe.MakePoeOrdered | mpp/poe.py:81-92 | at a location whose density has a positive total, percentiles requested in ascending order get POE values in `[0, 1]` that never increase down a location's column |
| Poe.PoeToTerciles | mpp/poe.py:154-161 | refused exactly when 33 or 67 is missing; otherwise one entry per location, with below = 1 minus the POE at the 33 row and above = the POE at the 67 row |
| Poe.TercilesPartition | mpp/poe.py:157-159 | the three categories sum to exactly 1, and near-normal is non-negative exactly when the POE at 33 is at least the POE at 67 |
| Poe.MissingTercileRefused | mpp/poe.py:154-155 | percentiles `[10, 50, 90]` are refused |
| Grids.PresetOf | data_utils/gridded/grid.py:64-100 | every built-in grid has two-component corners and a positive resolution |
| Grids.Trunc | data_utils/gridded/grid.py:115-117 | Python's `int()` on a float truncates toward zero |
| Grids.NewGrid | data_utils/gridded/grid.py:64-117 | a built-in name takes its preset corners and resolution with type `latlon`; an incomplete custom spec is refused exactly when no preset applies; a complete one is named `custom` and keeps its arguments; the point counts are computed from the corners and resolution |
| Grids.AxisCount | data_utils/gridded/grid.py:115-117 | `int(span / res + 1)`: at least one point exactly when `span / res >= 0`; for `span / res >= -1` the count is the floor of `span / res` plus one, and below `-1` it is one more than that unless `span / res` is a whole number, because `int()` truncates (`Grids.AxisCountCovers` gives its lattice meaning) |
| Grids.AxisCountCovers | data_utils/gridded/grid.py:115-117 | for a non-negative span and positive resolution, the count is the number of lattice points that do not pass the upper corner |
| Grids.AliasesAgree | data_utils/gridded/grid.py:64-94 | two names of the same built-in grid give the same lattice |
| Grids.AliasTable | data_utils/gridded/grid.py:64-100 | every built-in grid except the half-degree one answers to both the underscore and the hyphen spelling |
| Grids.BuiltInCounts | data_utils/gridded/grid.py:64-100 | point counts of the built-in grids: 181 x 360, 91 x 180, 73 x 144, 19 x 36, 1080 x 2160, 360 x 720 |
| Grids.CustomExample | tests/gridded/test_grid.py:26-28 | the custom spec (0, 0) to (90, 90) at resolution 1 is a 91 x 91 grid named `custom` |
| Grids.RefusedSpecs | tests/gridded/test_grid.py:20-23 | an unknown name, `0.5deg_global`, and a zero resolution are all refused |
| Merging.WhereMasked | data_utils/gridded/merging.py:57 | each cell is top where the mask equals 1 (never for NaN), bottom elsewhere |
| Merging.WherePresent | data_utils/gridded/merging.py:60 | each cell is top where top is not NaN, bottom elsewhere |
| Merging.StackGrids | data_utils/gridded/merging.py:55-62 | the current version selects by the mask when one is given, and by top's missingness otherwise |
| Merging.StackGridsLegacy | gridded_data_utils/merging.py:9-64 | the older version selects by the mask, and returns bottom unchanged when no mask is given |
| Merging.NanOnlyWhereBoth | data_utils/gridded/merging.py:58-60 | without a mask, a result cell is NaN exactly where both grids are NaN |
| Merging.FullTopWins | data_utils/gridded/merging.py:60 | a top grid with no NaN replaces the bottom grid |
| Merging.EmptyTopKeepsBottom | data_utils/gridded/merging.py:60 | an all-NaN top grid leaves the bottom grid unchanged |
| Merging.StackIdempotent | data_utils/gridded/merging.py:55-60 | stacking the same top grid a second time changes nothing |
| Merging.LegacyIdempotent | gridded_data_utils/merging.py:62 | the older version is idempotent in the same way |
| Merging.VersionsAgreeUnderMask | gridded_data_utils/merging.py:62 | given a mask, the two versions agree |
| Merging.CellLocal | data_utils/gridded/merging.py:57-60 | each result cell depends only on the input cells at the same position, in both versions |
| Plotting.PutTercilesInOneArray | data_utils/gridded/plotting.py:816-829 | `-below` where below exceeds 0.333 and above; `above` where above exceeds 0.333 and below; 0 where neither exceeds 0.333; NaN otherwise |
| Plotting.TercileCellMeaning | data_utils/gridded/plotting.py:816-829 | a cell is NaN exactly when an input is NaN or the two tie above 0.333; negative exactly when below wins, positive exactly when above wins, and 0 exactly when neither clears the threshold |
| Plotting.NearIgnored | data_utils/gridded/plotting.py:816 | the near-normal probabilities do not affect the result |
| Plotting.GetColors | data_utils/gridded/plotting.py:832-873 | the temperature and height tables are 7 blues, a grey, and 7 reds (15 colours); precipitation is 7 browns, a grey, and the greens scaled from 0-255; any other name is refused |
| Plotting.ColorsInUnitRange | data_utils/gridded/plotting.py:832-873 | every colour a table yields has its channels in `[0, 1]` |
| Plotting.CheckRanges | data_utils/gridded/plotting.py:139-150 | refused exactly when only one range is given, or when neither is given and the region is not US, CONUS or global |
| Plotting.CheckGlobalProjection | data_utils/gridded/plotting.py:151-154 | a global map is refused exactly when its projection is not Mercator |
| Plotting.RangeBox | data_utils/gridded/plotting.py:224-228 | the corners are the first two entries of each range; a range with fewer entries is refused |
| Plotting.RegionFrame | data_utils/gridded/plotting.py:205-221 | the Mercator box and meridian spacing for US (10 degrees), CONUS (5 degrees), and everything else (the globe, 30 degrees) |
| Plotting.RegionConic | data_utils/gridded/plotting.py:250-260 | the centred conic views of US and CONUS; no other region has one |
| Plotting.MapFrame | data_utils/gridded/plotting.py:203-284 | Mercator over the given ranges or the region's box; `lcc` or `laea` over the given ranges or exactly the region's centred view (`RegionConic`); any other projection is refused; the only errors are an unsupported projection, a range too short to index, and a conic map for a region without a size; a map is built exactly when none of these arises |
| Plotting.CbarExtend | data_utils/gridded/plotting.py:311-317 | `triangular` gives `both`, `square` gives `neither`, and anything else is refused |
| Plotting.CheckPlotArgs | data_utils/gridded/plotting.py:139-317 | the modelled checks (ranges, global projection, map frame, `cbar_ends`) run in source order, and each error, including the too-short range and the bad `cbar_ends`, is reported exactly when its check is the first of them to fail; a conic map never lacks a region size once the earlier checks pass; on success the frame is the one `MapFrame` builds |
| Plotting.RegionDefaults | data_utils/gridded/plotting.py:203-262 | concrete frames for maps drawn by region, and the refusal of a one-entry range |

## Left out

- The kernel density and the standard-normal quantiles of `make_poe` (`scipy.stats.norm.pdf` and `norm.ppf`, mpp/poe.py:58-76, 89) are inputs. The density is any non-negative grid, and the quantiles are a sequence of reals.
- The ensemble plotting block of `make_poe` is rendering and is not modelled.
- `find_nearest_index` belongs to a `stats_utils` module that is not part of this model. `Nearest.NearestIndex` reads it as the first position of least distance, the way `numpy.argmin` breaks ties. The tercile results rely only on its landing on the target when the target is present.
- All arithmetic is exact over the reals. IEEE rounding is not modelled, including:
  - the precision drift the knot match in data_utils/stats.py:105 warns about;
  - the float `1/6` resolution;
  - `numpy.linspace` rounding.
- Division of integers is read as Python 3 true division, as the package's Python 3 classifiers indicate. This decides two places:
  - the resolution `1/6` of the sixth-degree grid (data_utils/gridded/grid.py:93), which under Python 2 would be 0;
  - the `/ 255` scaling of the integer BuGn channels (data_utils/gridded/plotting.py:869), which under Python 2 would floor every channel below 255 to 0.
- `Grid.lats` and `Grid.lons` (`numpy.arange` with a float step, data_utils/gridded/grid.py:119-124) are not modelled, because their lengths depend on float stepping.
- NumPy broadcasting is not modelled: the grids and masks passed to `stack_grids` and `_put_terciles_in_one_array` are required to have one shape.
- `if mask:` in data_utils/gridded/merging.py:55 would raise on a multi-element array. The model reads mask presence as `Option`.
- `poe_to_terciles` works over real POE values, so NaN entries in `poe` are not modelled.
- `Merging.StackGrids`: requires equal lengths, where NumPy would broadcast or raise.
- `Plotting.GetColors`: the colour-brewer BuGn 7-class palette comes from an external library, so it is a parameter.
- The other checks of `_make_plot` are not modelled. These are the `fill_colors`/`levels` check (136-138), the tercile colour-bar check (156-158), the length checks on `levels`, `contour_colors` and `fill_colors` (162-175, 187-190), the `_get_colors(fill_colors)` lookup (184-185), whose ValueError for an unknown table name falls between the global-projection check and the projection check, and all drawing.
- The range-override warnings (141, 246-248) are diagnostics without effect on the result.
- The Lambert map's state boundaries (276-282) are not modelled, because they come from a shapefile.
- The rest of the repository is not modelled:
  - I/O: reading, loading and writing of grids and station data;
  - interpolation through Basemap;
  - the older plotting module;
  - scripts (`driver.py`, `test.py`);
  - stubs (`units.py`, `conversion.py`, `gridded_data_utils/interpolation.py`, `mpp/test-pdf.py`);
  - the trivial `mpp/stats.py`.

Two facts about the point counts, which the model follows:

- The counts are `int(span / res + 1)` (data_utils/gridded/grid.py:114-117), and Python's `int()` truncates toward zero (`Grids.Trunc`). This is not `floor(span / res) + 1`: the two differ exactly when `span / res < -1` and is not a whole number. That happens for a negative span with a positive resolution. It also happens for a positive span with a negative resolution, which the custom branch accepts, because data_utils/gridded/grid.py:103 only tests that `res` is non-zero.
- `Grid` has no check that the point counts are positive. A custom spec whose span and resolution have opposite signs yields a count of zero or less, with no error.

=== FILE: arith.dfy ===
/**
 Facts about real arithmetic that the interpolation formulas need: signs of
 products, fractions of a positive whole, and where a linear interpolation
 lands.
 */
module RealArith {

  lemma ProductPositive(x: real, y: real)
    requires x > 0.0 && y > 0.0
    ensures x * y > 0.0
  {
  }

  lemma ProductNonneg(x: real, y: real)
    requires x >= 0.0 && y >= 0.0
    ensures x * y >= 0.0
  {
  }

  lemma PositiveFactor(x: real, y: real)
    requires y > 0.0 && x * y > 0.0
    ensures x > 0.0
  {
  }

  /** Scaling a distance by a factor of at least one moves it no closer to zero. */
  lemma ScaleAway(k: real, d: real)
    requires k >= 1.0
    ensures d >= 0.0 ==> k * d >= d
    ensures d <= 0.0 ==> k * d <= d
  {
    assert k * d == (k - 1.0) * d + d;
    if d >= 0.0 {
      ProductNonneg(k - 1.0, d);
    } else {
      ProductNonneg(k - 1.0, -d);
      assert (k - 1.0) * (-d) == -((k - 1.0) * d);
    }
  }

  /** Scaling by a positive factor keeps the sign of a distance. */
  lemma ScaleKeepsSign(k: real, d: real, e: real)
    requires k > 0.0 && e == k * d
    ensures d < 0.0 ==> e < 0.0
    ensures d == 0.0 ==> e == 0.0
    ensures d > 0.0 ==> e > 0.0
  {
    if d < 0.0 {
      ProductPositive(k, -d);
      assert k * (-d) == -(k * d);
    }
    if d > 0.0 {
      ProductPositive(k, d);
    }
  }

  /** A part strictly inside a positive whole is a strict fraction of it. */
  lemma FractionInside(a: real, b: real)
    requires 0.0 < a < b
    ensures 0.0 < a / b < 1.0
  {
    var q := a / b;
    assert q * b == a;
    assert (1.0 - q) * b == b - a;
    PositiveFactor(1.0 - q, b);
  }

  lemma DivNeg(a: real, d: real)
    requires d != 0.0
    ensures (-a) / (-d) == a / d
  {
  }

  lemma DivAdd(a: real, b: real, d: real)
    requires d != 0.0
    ensures a / d + b / d == (a + b) / d
  {
  }

  lemma DivSelf(d: real)
    requires d != 0.0
    ensures d / d == 1.0
  {
  }

  /** Dividing by a positive number keeps the order. */
  lemma DivMonotone(a: real, b: real, d: real)
    requires a <= b && d > 0.0
    ensures a / d <= b / d
  {
    DivAdd(a, b - a, d);
    assert (b - a) / d * d == b - a;
    if (b - a) / d < 0.0 {
      ProductPositive(-((b - a) / d), d);
    }
  }

  /** Multiplying by a non-negative number keeps the order. */
  lemma MulMonotone(a: real, b: real, w: real)
    requires a <= b && w >= 0.0
    ensures a * w <= b * w
  {
    ProductNonneg(b - a, w);
  }

  /**
   A quotient q = x / d of a positive divisor lying in [m - 1, m) places x in
   [(m - 1) d, m d); stated with q given, so no division is in sight.
   */
  lemma QuotientBounds(x: real, d: real, m: real, q: real)
    requires d > 0.0 && q * d == x && m - 1.0 <= q < m
    ensures (m - 1.0) * d <= x < m * d
  {
    ProductPositive(m - q, d);
    ProductNonneg(q - (m - 1.0), d);
    assert (m - q) * d == m * d - q * d;
    assert (q - (m - 1.0)) * d == q * d - (m - 1.0) * d;
  }

  /**
   Stepping a fraction t in (0, 1) of the way from lo to hi lands in
   [lo, hi], strictly inside when lo < hi; both spellings of the step.
   */
  lemma LerpInside(t: real, lo: real, hi: real)
    requires 0.0 < t < 1.0 && lo <= hi
    ensures lo <= lo + t * (hi - lo) <= hi
    ensures lo + t * (hi - lo) == lo + (hi - lo) * t
    ensures lo < hi ==> lo < lo + t * (hi - lo) < hi
  {
    ProductNonneg(t, hi - lo);
    ProductNonneg(1.0 - t, hi - lo);
    assert (1.0 - t) * (hi - lo) == (hi - lo) - t * (hi - lo);
    if lo < hi {
      ProductPositive(t, hi - lo);
      ProductPositive(1.0 - t, hi - lo);
    }
  }

  /** (v - lo) / (p - lo) and (v - p) / (lo - p) are complementary fractions. */
  lemma Complement(v: real, lo: real, p: real)
    requires p < lo
    ensures (v - lo) / (p - lo) == 1.0 - (v - p) / (lo - p)
  {
    DivNeg(lo - v, lo - p);
    assert -(lo - v) == v - lo;
    assert -(lo - p) == p - lo;
    DivAdd(lo - v, v - p, lo - p);
    DivSelf(lo - p);
  }
}

=== FILE: bisect.dfy ===
/**
 Python's `bisect.bisect_right` (also spelled `bisect.bisect`), exactly as
 the standard library runs it: a binary search that moves right whenever the
 probe is not strictly greater than the key. A NaN probe compares false, so
 the search moves right past it.
 */
module Bisect {
  import opened Common

  /** `(lo + hi) // 2`: the probe position, inside a non-empty window. */
  function Midpoint(lo: nat, hi: nat): (mid: nat)
    requires lo < hi
    ensures lo <= mid < hi
  {
    (lo + hi) / 2
  }

  /** The binary search over the half-open window [lo, hi). */
  function BisectRange(a: seq<Float>, x: real, lo: nat, hi: nat): (r: nat)
    requires lo <= hi <= |a|
    ensures lo <= r <= hi
    decreases hi - lo
  {
    if lo < hi then
      var mid := Midpoint(lo, hi);
      if Lt(Some(x), a[mid]) then BisectRange(a, x, lo, mid)
      else BisectRange(a, x, mid + 1, hi)
    else
      lo
  }

  /**
   The insertion point of `x` to the right of any equal entries. Whatever the
   order of `a`, the entry just left of the result is not greater than `x`
   (or is NaN), and the entry at the result is greater than `x`.
   */
  function BisectRight(a: seq<Float>, x: real): (r: nat)
    ensures r <= |a|
    ensures r == 0 || !Lt(Some(x), a[r - 1])
    ensures r == |a| || Lt(Some(x), a[r])
  {
    BisectRangeBrackets(a, x, 0, |a|);
    BisectRange(a, x, 0, |a|)
  }

  /** The window's bracketing facts hold of the search's result. */
  lemma {:induction false} BisectRangeBrackets(a: seq<Float>, x: real, lo: nat, hi: nat)
    requires lo <= hi <= |a|
    requires lo == 0 || !Lt(Some(x), a[lo - 1])
    requires hi == |a| || Lt(Some(x), a[hi])
    ensures var r := BisectRange(a, x, lo, hi);
      (r == 0 || !Lt(Some(x), a[r - 1])) && (r == |a| || Lt(Some(x), a[r]))
    decreases hi - lo
  {
    if lo < hi {
      var mid := Midpoint(lo, hi);
      if Lt(Some(x), a[mid]) {
        BisectRangeBrackets(a, x, lo, mid);
        assert BisectRange(a, x, lo, hi) == BisectRange(a, x, lo, mid);
      } else {
        BisectRangeBrackets(a, x, mid + 1, hi);
        assert BisectRange(a, x, lo, hi) == BisectRange(a, x, mid + 1, hi);
      }
    }
  }

  /** Independent reference: the number of entries not greater than `x`. */
  function CountAtMost(a: seq<real>, x: real): nat {
    if |a| == 0 then 0 else (if a[0] <= x then 1 else 0) + CountAtMost(a[1..], x)
  }

  lemma {:induction false} CountAtMostSplit(a: seq<real>, x: real, r: nat)
    requires r <= |a|
    requires forall i :: 0 <= i < r ==> a[i] <= x
    requires forall i :: r <= i < |a| ==> x < a[i]
    ensures CountAtMost(a, x) == r
    decreases |a|
  {
    if |a| > 0 {
      if r > 0 {
        CountAtMostSplit(a[1..], x, r - 1);
      } else {
        CountAtMostSplit(a[1..], x, 0);
      }
    }
  }

  /**
   On a sorted sequence without NaN the search splits it: everything left of
   the result is at most `x`, everything from the result on is greater, and
   the result is the count of entries at most `x`.
   */
  lemma BisectRightSorted(a: seq<real>, x: real)
    requires Ascending(a)
    ensures var r := BisectRight(Lift(a), x);
      && (forall i :: 0 <= i < r ==> a[i] <= x)
      && (forall i :: r <= i < |a| ==> x < a[i])
      && r == CountAtMost(a, x)
  {
    var r := BisectRight(Lift(a), x);
    assert forall i :: 0 <= i < r ==> a[i] <= x by {
      forall i | 0 <= i < r
        ensures a[i] <= x
      {
        assert !Lt(Some(x), Lift(a)[r - 1]);
        assert a[i] <= a[r - 1];
      }
    }
    assert forall i :: r <= i < |a| ==> x < a[i] by {
      forall i | r <= i < |a|
        ensures x < a[i]
      {
        assert Lt(Some(x), Lift(a)[r]);
        assert a[r] <= a[i];
      }
    }
    CountAtMostSplit(a, x, r);
  }
}

=== FILE: common.dfy ===
/**
 Shared vocabulary of the model: an Option and a Result for the source's
 NaN values and raised exceptions, and IEEE-style comparisons on a
 float that may be NaN.
 */
module Common {

  datatype Option<+T> = None | Some(value: T)

  /** A computation that either returns a value or raises an error. */
  datatype Result<+T, +E> = Ok(value: T) | Err(error: E)

  /** A NumPy float64 read as a real number; `None` is NaN. */
  type Float = Option<real>

  const NaN: Float := None

  predicate IsNan(x: Float) {
    x.None?
  }

  /* Every ordered comparison that involves NaN is false, as in IEEE 754. */

  predicate Lt(x: Float, y: Float) {
    x.Some? && y.Some? && x.value < y.value
  }

  predicate Le(x: Float, y: Float) {
    x.Some? && y.Some? && x.value <= y.value
  }

  predicate Gt(x: Float, y: Float) {
    Lt(y, x)
  }

  predicate Ge(x: Float, y: Float) {
    Le(y, x)
  }

  /** Equality of floats: NaN equals nothing, not even itself. */
  predicate FloatEq(x: Float, y: Float) {
    x.Some? && y.Some? && x.value == y.value
  }

  /** A sequence of floats with no NaN in it. */
  predicate NoNan(s: seq<Float>) {
    forall i :: 0 <= i < |s| ==> s[i].Some?
  }

  /** Reads a sequence of reals as floats, none of them NaN. */
  function Lift(s: seq<real>): (r: seq<Float>)
    ensures |r| == |s|
    ensures forall i :: 0 <= i < |s| ==> r[i] == Some(s[i])
  {
    seq(|s|, i requires 0 <= i < |s| => Some(s[i]))
  }

  lemma LiftMembership(s: seq<real>, v: real)
    ensures Some(v) in Lift(s) <==> v in s
  {
    if v in s {
      var i :| 0 <= i < |s| && s[i] == v;
      assert Lift(s)[i] == Some(v);
    }
  }

  /** Python's reading of a possibly negative index into a sequence of length n. */
  function PyIndex(i: int, n: nat): int {
    if i < 0 then i + n else i
  }

  /** Non-decreasing sequence of reals. */
  predicate Ascending(s: seq<real>) {
    forall i, j :: 0 <= i <= j < |s| ==> s[i] <= s[j]
  }
}

=== FILE: grid.dfy ===
/**
 The `Grid` descriptor: a latitude/longitude lattice given either by the
 name of a built-in grid (hyphen or underscore spelling) or by explicit
 corners and resolution, with the point counts along each axis derived by
 truncation.
 */
module Grids {
  import opened Common
  import opened RealArith

  /** Corners as (lat, lon) and the spacing between points. */
  datatype Preset = Preset(llCorner: seq<real>, urCorner: seq<real>, res: real)

  datatype Grid = Grid(
    name: string,
    llCorner: seq<real>,
    urCorner: seq<real>,
    res: real,
    kind: string,     // the `type` attribute, 'latlon' for every built-in grid
    numY: int,
    numX: int)

  datatype GridError =
    | MissingSpec     // ValueError: no built-in name and an incomplete custom spec
    | CornerTooShort  // IndexError: a custom corner without both a lat and a lon

  /** The built-in grids, looked up by name. */
  function PresetOf(name: Option<string>): (p: Option<Preset>)
    ensures p.Some? ==> |p.value.llCorner| == 2 && |p.value.urCorner| == 2 && p.value.res > 0.0
  {
    if name == Some("1deg_global") || name == Some("1deg-global") then
      Some(Preset([-90.0, 0.0], [90.0, 359.0], 1.0))
    else if name == Some("2deg_global") || name == Some("2deg-global") then
      Some(Preset([-90.0, 0.0], [90.0, 358.0], 2.0))
    else if name == Some("2.5deg_global") || name == Some("2.5deg-global") then
      Some(Preset([-90.0, 0.0], [90.0, 357.5], 2.5))
    else if name == Some("2deg_conus") || name == Some("2deg-conus") then
      Some(Preset([20.0, 230.0], [56.0, 300.0], 2.0))
    else if name == Some("1/6th_deg_global") || name == Some("1/6th-deg-global") then
      Some(Preset([-89.9167, 0.0833], [89.9167, 359.9167], 1.0 / 6.0))
    else if name == Some("0.5deg-global") then
      Some(Preset([-89.75, 0.25], [89.75, 359.75], 0.5))
    else
      None
  }

  /** Python's `int()` on a float: truncation toward zero. */
  function Trunc(x: real): (n: int)
    ensures x >= 0.0 ==> n as real <= x < n as real + 1.0
    ensures x < 0.0 ==> n as real - 1.0 < x <= n as real
  {
    if x >= 0.0 then x.Floor else -((-x).Floor)
  }

  /** Truthiness of a corner tuple: present and non-empty. */
  predicate CornerGiven(c: Option<seq<real>>) {
    c.Some? && |c.value| > 0
  }

  /** Truthiness of a resolution: present and non-zero. */
  predicate ResGiven(res: Option<real>) {
    res.Some? && res.value != 0.0
  }

  /** The number of points along one axis: `int((hi - lo) / res + 1)`. */
  function AxisCount(lo: real, hi: real, res: real): (n: int)
    requires res != 0.0
    ensures n >= 1 <==> (hi - lo) / res >= 0.0
    ensures (hi - lo) / res >= -1.0 ==> (n - 1) as real <= (hi - lo) / res < n as real
    ensures (hi - lo) / res < -1.0 ==> (n - 2) as real < (hi - lo) / res <= (n - 1) as real
  {
    Trunc((hi - lo) / res + 1.0)
  }

  /** `Grid(name, ll_corner, ur_corner, res, type)`. */
  function NewGrid(name: Option<string>, ll: Option<seq<real>>, ur: Option<seq<real>>, res: Option<real>, kind: string)
    : (r: Result<Grid, GridError>)
    ensures PresetOf(name).Some? ==>
      var p := PresetOf(name).value;
      && r.Ok? && Some(r.value.name) == name && r.value.kind == "latlon"
      && r.value.llCorner == p.llCorner && r.value.urCorner == p.urCorner && r.value.res == p.res
    ensures r == Err(MissingSpec) <==>
      PresetOf(name).None? && !(CornerGiven(ll) && CornerGiven(ur) && ResGiven(res))
    ensures r == Err(CornerTooShort) <==>
      && PresetOf(name).None? && CornerGiven(ll) && CornerGiven(ur) && ResGiven(res)
      && (|ll.value| < 2 || |ur.value| < 2)
    ensures r.Ok? && PresetOf(name).None? ==>
      && r.value.name == "custom" && r.value.kind == kind
      && r.value.llCorner == ll.value && r.value.urCorner == ur.value && r.value.res == res.value
    ensures r.Ok? ==>
      && r.value.res != 0.0 && |r.value.llCorner| >= 2 && |r.value.urCorner| >= 2
      && r.value.numY == AxisCount(r.value.llCorner[0], r.value.urCorner[0], r.value.res)
      && r.value.numX == AxisCount(r.value.llCorner[1], r.value.urCorner[1], r.value.res)
  {
    if PresetOf(name).Some? then
      var p := PresetOf(name).value;
      Ok(Grid(name.value, p.llCorner, p.urCorner, p.res, "latlon",
              AxisCount(p.llCorner[0], p.urCorner[0], p.res),
              AxisCount(p.llCorner[1], p.urCorner[1], p.res)))
    else if !(CornerGiven(ll) && CornerGiven(ur) && ResGiven(res)) then
      Err(MissingSpec)
    else if |ll.value| < 2 || |ur.value| < 2 then
      Err(CornerTooShort)
    else
      Ok(Grid("custom", ll.value, ur.value, res.value, kind,
              AxisCount(ll.value[0], ur.value[0], res.value),
              AxisCount(ll.value[1], ur.value[1], res.value)))
  }

  /**
   For a non-negative span and a positive resolution the axis count is the
   number of points lo, lo + res, lo + 2 res, ... that do not pass hi: the
   last one is at or below hi and the next would be above it.
   */
  lemma AxisCountCovers(lo: real, hi: real, res: real)
    requires lo <= hi && res > 0.0
    ensures var n := AxisCount(lo, hi, res);
      && n >= 1
      && lo + (n - 1) as real * res <= hi < lo + n as real * res
  {
    var n := AxisCount(lo, hi, res);
    var q := (hi - lo) / res;
    var size := n as real;
    DivMonotone(0.0, hi - lo, res);
    assert size - 1.0 <= q < size;
    QuotientBounds(hi - lo, res, size, q);
    assert (n - 1) as real == size - 1.0;
  }

  /** Two grids that differ at most in the name they were asked for. */
  predicate SameLattice(a: Result<Grid, GridError>, b: Result<Grid, GridError>) {
    a.Ok? && b.Ok? && a.value.(name := b.value.name) == b.value
  }

  /** Two names of the same built-in grid give the same lattice. */
  lemma AliasesAgree(u: string, h: string)
    requires PresetOf(Some(u)).Some? && PresetOf(Some(u)) == PresetOf(Some(h))
    ensures SameLattice(NewGrid(Some(u), None, None, None, "latlon"), NewGrid(Some(h), None, None, None, "latlon"))
  {
  }

  /** Every built-in grid but the half-degree one answers to both spellings. */
  lemma AliasTable()
    ensures PresetOf(Some("1deg_global")).Some? && PresetOf(Some("1deg_global")) == PresetOf(Some("1deg-global"))
    ensures PresetOf(Some("2deg_global")).Some? && PresetOf(Some("2deg_global")) == PresetOf(Some("2deg-global"))
    ensures PresetOf(Some("2.5deg_global")).Some? && PresetOf(Some("2.5deg_global")) == PresetOf(Some("2.5deg-global"))
    ensures PresetOf(Some("2deg_conus")).Some? && PresetOf(Some("2deg_conus")) == PresetOf(Some("2deg-conus"))
    ensures PresetOf(Some("1/6th_deg_global")).Some? && PresetOf(Some("1/6th_deg_global")) == PresetOf(Some("1/6th-deg-global"))
    ensures PresetOf(Some("0.5deg-global")).Some? && PresetOf(Some("0.5deg_global")).None?
  {
  }

  /** Point counts of every built-in grid. */
  lemma BuiltInCounts()
    ensures var g := NewGrid(Some("1deg-global"), None, None, None, "latlon").value; g.numY == 181 && g.numX == 360
    ensures var g := NewGrid(Some("2deg-global"), None, None, None, "latlon").value; g.numY == 91 && g.numX == 180
    ensures var g := NewGrid(Some("2.5deg-global"), None, None, None, "latlon").value; g.numY == 73 && g.numX == 144
    ensures var g := NewGrid(Some("2deg-conus"), None, None, None, "latlon").value; g.numY == 19 && g.numX == 36
    ensures var g := NewGrid(Some("1/6th-deg-global"), None, None, None, "latlon").value; g.numY == 1080 && g.numX == 2160
    ensures var g := NewGrid(Some("0.5deg-global"), None, None, None, "latlon").value; g.numY == 360 && g.numX == 720
  {
  }

  /** An explicit spec (0, 0) to (90, 90) at resolution 1 is a 91 x 91 custom grid. */
  lemma CustomExample()
    ensures var r := NewGrid(None, Some([0.0, 0.0]), Some([90.0, 90.0]), Some(1.0), "latlon");
      r.Ok? && r.value.name == "custom" && r.value.numY == 91 && r.value.numX == 91
  {
  }

  /**
   Refused specs: an unknown name alone, the underscore spelling of the
   half-degree grid (which has none), and a zero resolution.
   */
  lemma RefusedSpecs()
    ensures NewGrid(Some("unsupported"), None, None, None, "latlon") == Err(MissingSpec)
    ensures NewGrid(Some("0.5deg_global"), None, None, None, "latlon") == Err(MissingSpec)
    ensures NewGrid(None, Some([0.0, 0.0]), Some([90.0, 90.0]), Some(0.0), "latlon") == Err(MissingSpec)
  {
  }
}

=== FILE: merging.dfy ===
/**
 Stacking one grid on top of another, cell by cell, in the two versions of
 `stack_grids`: the current one falls back to "top wherever top is not
 missing" when no mask is given; the older one always selects by
 `mask == 1`, so without a mask it returns the bottom grid. Grids are
 flattened to sequences of cells.
 */
module Merging {
  import opened Common

  /** `mask == 1` for one cell: false for NaN and for every other value. */
  predicate Selected(m: Float) {
    FloatEq(m, Some(1.0))
  }

  /** Grids of one shape, and a mask of that shape when one is given. */
  predicate Conformant(bottom: seq<Float>, top: seq<Float>, mask: Option<seq<Float>>) {
    |bottom| == |top| && (mask.Some? ==> |mask.value| == |bottom|)
  }

  /** `numpy.where(mask == 1, top, bottom)`. */
  function WhereMasked(bottom: seq<Float>, top: seq<Float>, mask: seq<Float>): (r: seq<Float>)
    requires |bottom| == |top| == |mask|
    ensures |r| == |bottom|
    ensures forall i :: 0 <= i < |r| ==> r[i] == (if Selected(mask[i]) then top[i] else bottom[i])
  {
    seq(|bottom|, i requires 0 <= i < |bottom| => if Selected(mask[i]) then top[i] else bottom[i])
  }

  /** `numpy.where(~numpy.isnan(top), top, bottom)`. */
  function WherePresent(bottom: seq<Float>, top: seq<Float>): (r: seq<Float>)
    requires |bottom| == |top|
    ensures |r| == |bottom|
    ensures forall i :: 0 <= i < |r| ==> r[i] == (if top[i].Some? then top[i] else bottom[i])
  {
    seq(|bottom|, i requires 0 <= i < |bottom| => if top[i].Some? then top[i] else bottom[i])
  }

  /** `stack_grids(bottom, top, mask)` of the current version. */
  function StackGrids(bottom: seq<Float>, top: seq<Float>, mask: Option<seq<Float>>): (r: seq<Float>)
    requires Conformant(bottom, top, mask)
    ensures |r| == |bottom|
    ensures mask.Some? ==> forall i :: 0 <= i < |r| ==>
      (Selected(mask.value[i]) ==> r[i] == top[i]) && (!Selected(mask.value[i]) ==> r[i] == bottom[i])
    ensures mask.None? ==> forall i :: 0 <= i < |r| ==>
      (top[i].Some? ==> r[i] == top[i]) && (top[i].None? ==> r[i] == bottom[i])
  {
    if mask.Some? then WhereMasked(bottom, top, mask.value) else WherePresent(bottom, top)
  }

  /**
   `stack_grids(bottom, top, mask)` of the older version: `mask == 1` is
   evaluated even when the mask is None, where it is simply false.
   */
  function StackGridsLegacy(bottom: seq<Float>, top: seq<Float>, mask: Option<seq<Float>>): (r: seq<Float>)
    requires Conformant(bottom, top, mask)
    ensures |r| == |bottom|
    ensures mask.None? ==> r == bottom
    ensures mask.Some? ==> forall i :: 0 <= i < |r| ==>
      (Selected(mask.value[i]) ==> r[i] == top[i]) && (!Selected(mask.value[i]) ==> r[i] == bottom[i])
  {
    if mask.Some? then WhereMasked(bottom, top, mask.value) else bottom
  }

  /** Without a mask the result is NaN exactly where both grids are NaN. */
  lemma NanOnlyWhereBoth(bottom: seq<Float>, top: seq<Float>)
    requires |bottom| == |top|
    ensures var r := StackGrids(bottom, top, None);
      forall i :: 0 <= i < |r| ==> (r[i].None? <==> top[i].None? && bottom[i].None?)
  {
  }

  /** A top grid without NaN covers the bottom grid completely. */
  lemma FullTopWins(bottom: seq<Float>, top: seq<Float>)
    requires |bottom| == |top| && NoNan(top)
    ensures StackGrids(bottom, top, None) == top
  {
  }

  /** A top grid that is NaN everywhere leaves the bottom grid as it was. */
  lemma EmptyTopKeepsBottom(bottom: seq<Float>, top: seq<Float>)
    requires |bottom| == |top| && forall i :: 0 <= i < |top| ==> top[i].None?
    ensures StackGrids(bottom, top, None) == bottom
  {
  }

  /** Stacking the same top grid a second time changes nothing, with or without a mask. */
  lemma StackIdempotent(bottom: seq<Float>, top: seq<Float>, mask: Option<seq<Float>>)
    requires Conformant(bottom, top, mask)
    ensures var once := StackGrids(bottom, top, mask);
      StackGrids(once, top, mask) == once
  {
  }

  /** The older version is idempotent in the same way. */
  lemma LegacyIdempotent(bottom: seq<Float>, top: seq<Float>, mask: Option<seq<Float>>)
    requires Conformant(bottom, top, mask)
    ensures var once := StackGridsLegacy(bottom, top, mask);
      StackGridsLegacy(once, top, mask) == once
  {
  }

  /** Given a mask the two versions agree; without one they differ only through the NaN fallback. */
  lemma VersionsAgreeUnderMask(bottom: seq<Float>, top: seq<Float>, mask: seq<Float>)
    requires Conformant(bottom, top, Some(mask))
    ensures StackGrids(bottom, top, Some(mask)) == StackGridsLegacy(bottom, top, Some(mask))
  {
  }

  /**
   Each result cell depends only on the cells at the same position: inputs
   that agree at position i give results that agree there.
   */
  lemma CellLocal(b1: seq<Float>, t1: seq<Float>, m1: Option<seq<Float>>,
                  b2: seq<Float>, t2: seq<Float>, m2: Option<seq<Float>>, i: nat)
    requires Conformant(b1, t1, m1) && Conformant(b2, t2, m2)
    requires i < |b1| && i < |b2|
    requires b1[i] == b2[i] && t1[i] == t2[i]
    requires m1.Some? == m2.Some? && (m1.Some? ==> m1.value[i] == m2.value[i])
    ensures StackGrids(b1, t1, m1)[i] == StackGrids(b2, t2, m2)[i]
    ensures StackGridsLegacy(b1, t1, m1)[i] == StackGridsLegacy(b2, t2, m2)[i]
  {
  }
}

=== FILE: nearest.dfy ===
/**
 The nearest-index lookup used by the ensemble POE code: the position of the
 entry closest to a target, the first such position on a tie (the way
 `numpy.argmin` breaks ties). The helper it stands for lives in a module
 outside this repository; the model commits only to the first-argmin
 reading.
 */
module Nearest {
  import opened Common

  function Abs(x: real): (r: real)
    ensures r >= 0.0 && (r == x || r == -x)
  {
    if x < 0.0 then -x else x
  }

  /** Distance from entry `a[i]` to the target. */
  function Distance(a: seq<real>, i: nat, t: real): real
    requires i < |a|
  {
    Abs(a[i] - t)
  }

  /**
   The first position whose entry is closest to `t`: nothing is closer, and
   every earlier entry is strictly farther.
   */
  function NearestIndex(a: seq<real>, t: real): (i: nat)
    requires |a| > 0
    ensures i < |a|
    ensures forall j :: 0 <= j < |a| ==> Distance(a, i, t) <= Distance(a, j, t)
    ensures forall j :: 0 <= j < i ==> Distance(a, i, t) < Distance(a, j, t)
    decreases |a|
  {
    if |a| == 1 then 0
    else
      var front := a[..|a| - 1];
      var j := NearestIndex(front, t);
      assert forall m :: 0 <= m < |front| ==> Distance(front, m, t) == Distance(a, m, t);
      if Distance(a, |a| - 1, t) < Distance(a, j, t) then |a| - 1 else j
  }

  /** When the target is present, the lookup lands on its first occurrence. */
  lemma LandsOnTarget(a: seq<real>, t: real)
    requires t in a
    ensures var i := NearestIndex(a, t);
      a[i] == t && forall j :: 0 <= j < i ==> a[j] != t
  {
    var i := NearestIndex(a, t);
    var w :| 0 <= w < |a| && a[w] == t;
    assert Distance(a, w, t) == 0.0;
    forall j | 0 <= j < i
      ensures a[j] != t
    {
      assert Distance(a, i, t) < Distance(a, j, t);
    }
  }

  /**
   On an ascending sequence a larger target never moves the lookup to an
   earlier position.
   */
  lemma NearestMonotone(a: seq<real>, t1: real, t2: real)
    requires |a| > 0 && t1 <= t2
    requires Ascending(a)
    ensures NearestIndex(a, t1) <= NearestIndex(a, t2)
  {
    // Were the second index earlier, its entry would be no larger, strictly
    // farther from t1 yet no farther from t2: impossible, since the gap
    // |hi - t| - |lo - t| between a larger and a smaller entry never grows with t.
  }
}

=== FILE: plotting.dfy ===
/**
 The parts of the plotting module that decide something rather than draw:
 collapsing tercile probabilities into one signed value per cell, the named
 colour tables, and the argument checks of `_make_plot` on region, lat/lon
 ranges, projection and colour-bar ends.
 */
module Plotting {
  import opened Common

  // ---------------------------------------------------------------------------
  // Terciles in one array
  // ---------------------------------------------------------------------------

  /** The probability a category needs to be shown: 0.333. */
  const Threshold: Float := Some(0.333)

  /** `numpy.where(cond, x, acc)` cell by cell, with the new value supplied per index. */
  function Overlay(acc: seq<Float>, cond: seq<bool>, x: seq<Float>): (r: seq<Float>)
    requires |acc| == |cond| == |x|
    ensures |r| == |acc|
    ensures forall i :: 0 <= i < |r| ==> r[i] == (if cond[i] then x[i] else acc[i])
  {
    seq(|acc|, i requires 0 <= i < |acc| => if cond[i] then x[i] else acc[i])
  }

  /** `-1 * below` cell by cell (NaN stays NaN). */
  function Negate(xs: seq<Float>): (r: seq<Float>)
    ensures |r| == |xs|
    ensures forall i :: 0 <= i < |xs| ==> (xs[i].Some? ==> r[i] == Some(-xs[i].value)) && (xs[i].None? ==> r[i].None?)
  {
    seq(|xs|, i requires 0 <= i < |xs| => if xs[i].Some? then Some(-xs[i].value) else NaN)
  }

  /**
   `_put_terciles_in_one_array(below, near, above)`: start from NaN, write
   `-below` where below clears the threshold and beats above, then `above`
   where above clears it and beats below, then 0 where neither clears it.
   `near` is accepted and never read.
   */
  function PutTercilesInOneArray(below: seq<Float>, near: seq<Float>, above: seq<Float>): (r: seq<Float>)
    requires |below| == |near| == |above|
    ensures |r| == |below|
    ensures forall i :: 0 <= i < |r| ==>
      var b, a := below[i], above[i];
      && (Gt(b, Threshold) && Gt(b, a) ==> r[i] == Some(-b.value))
      && (Gt(a, Threshold) && Gt(a, b) ==> r[i] == a)
      && (Le(b, Threshold) && Le(a, Threshold) ==> r[i] == Some(0.0))
      && ((Gt(b, Threshold) && Gt(b, a)) || (Gt(a, Threshold) && Gt(a, b))
          || (Le(b, Threshold) && Le(a, Threshold)) || r[i] == NaN)
  {
    var n := |below|;
    var start := seq(n, i => NaN);
    var belowWins := seq(n, i requires 0 <= i < n => Gt(below[i], Threshold) && Gt(below[i], above[i]));
    var aboveWins := seq(n, i requires 0 <= i < n => Gt(above[i], Threshold) && Gt(above[i], below[i]));
    var neither := seq(n, i requires 0 <= i < n => Le(below[i], Threshold) && Le(above[i], Threshold));
    var first := Overlay(start, belowWins, Negate(below));
    var second := Overlay(first, aboveWins, above);
    Overlay(second, neither, seq(n, i => Some(0.0)))
  }

  /**
   A cell is NaN exactly when one of its probabilities is NaN or the two
   tie above the threshold; otherwise its sign says which category won
   (negative below, positive above, zero for neither) and its magnitude is
   the winner's probability.
   */
  lemma TercileCellMeaning(below: seq<Float>, near: seq<Float>, above: seq<Float>, i: nat)
    requires |below| == |near| == |above| && i < |below|
    ensures var r, b, a := PutTercilesInOneArray(below, near, above)[i], below[i], above[i];
      && (r.None? <==> b.None? || a.None? || (b == a && b.value > 0.333))
      && (r.Some? && r.value < 0.0 <==> b.Some? && a.Some? && b.value > 0.333 && b.value > a.value)
      && (r.Some? && r.value > 0.0 <==> b.Some? && a.Some? && a.value > 0.333 && a.value > b.value)
      && (r == Some(0.0) <==> b.Some? && a.Some? && b.value <= 0.333 && a.value <= 0.333)
      && (r.Some? && r.value < 0.0 ==> r.value == -b.value)
      && (r.Some? && r.value > 0.0 ==> r == a)
  {
  }

  /** The near-normal probabilities play no part in the result. */
  lemma NearIgnored(below: seq<Float>, near1: seq<Float>, near2: seq<Float>, above: seq<Float>)
    requires |below| == |near1| == |near2| == |above|
    ensures PutTercilesInOneArray(below, near1, above) == PutTercilesInOneArray(below, near2, above)
  {
  }

  // ---------------------------------------------------------------------------
  // Colour tables
  // ---------------------------------------------------------------------------

  /** An RGB colour with components scaled to [0, 1]. */
  datatype Rgb = Rgb(r: real, g: real, b: real)

  predicate UnitRgb(c: Rgb) {
    0.0 <= c.r <= 1.0 && 0.0 <= c.g <= 1.0 && 0.0 <= c.b <= 1.0
  }

  /** An 8-bit colour channel triple, as colour-brewer palettes list them. */
  predicate ByteRgb(c: Rgb) {
    0.0 <= c.r <= 255.0 && 0.0 <= c.g <= 255.0 && 0.0 <= c.b <= 255.0
  }

  const Grey: Rgb := Rgb(0.75, 0.75, 0.75)

  const TempBelow: seq<Rgb> := [
    Rgb(0.01, 0.31, 0.48), Rgb(0.02, 0.44, 0.69), Rgb(0.21, 0.56, 0.75), Rgb(0.45, 0.66, 0.81),
    Rgb(0.65, 0.74, 0.86), Rgb(0.82, 0.82, 0.9), Rgb(0.95, 0.93, 0.96)]

  const TempAbove: seq<Rgb> := [
    Rgb(1.0, 0.94, 0.85), Rgb(0.99, 0.83, 0.62), Rgb(0.99, 0.73, 0.52), Rgb(0.99, 0.55, 0.35),
    Rgb(0.94, 0.4, 0.28), Rgb(0.84, 0.19, 0.12), Rgb(0.6, 0.0, 0.0)]

  const PrecipBelow: seq<Rgb> := [
    Rgb(0.26, 0.13, 0.01), Rgb(0.36, 0.19, 0.02), Rgb(0.45, 0.25, 0.02), Rgb(0.63, 0.39, 0.12),
    Rgb(0.74, 0.56, 0.33), Rgb(0.85, 0.73, 0.55), Rgb(0.96, 0.9, 0.76)]

  datatype ColorError = UnsupportedColors  // ValueError: unknown colour table name

  /** A palette given in 0-255 channels, scaled to [0, 1]. */
  function Scale255(p: seq<Rgb>): (r: seq<Rgb>)
    ensures |r| == |p|
    ensures forall i :: 0 <= i < |p| ==> r[i] == Rgb(p[i].r / 255.0, p[i].g / 255.0, p[i].b / 255.0)
  {
    seq(|p|, i requires 0 <= i < |p| => Rgb(p[i].r / 255.0, p[i].g / 255.0, p[i].b / 255.0))
  }

  /**
   `_get_colors(colors)`: the fill colours of a tercile map, below-normal
   shades first, then grey for near-normal, then above-normal shades. The
   precipitation greens come from the colour-brewer BuGn 7-class palette,
   passed in as `buGn7` in 0-255 channels.
   */
  function GetColors(name: string, buGn7: seq<Rgb>): (r: Result<seq<Rgb>, ColorError>)
    ensures r.Err? <==> name !in {"tmean-terciles", "500hgt-terciles", "precip-terciles"}
    ensures name in {"tmean-terciles", "500hgt-terciles"} ==>
      r.Ok? && |r.value| == 15 && r.value[..7] == TempBelow && r.value[7] == Grey && r.value[8..] == TempAbove
    ensures name == "precip-terciles" ==>
      && r.Ok? && |r.value| == 8 + |buGn7|
      && r.value[..7] == PrecipBelow && r.value[7] == Grey
      && forall i :: 0 <= i < |buGn7| ==>
        r.value[8 + i] == Rgb(buGn7[i].r / 255.0, buGn7[i].g / 255.0, buGn7[i].b / 255.0)
  {
    if name in {"tmean-terciles", "500hgt-terciles"} then
      Ok(TempBelow + [Grey] + TempAbove)
    else if name == "precip-terciles" then
      Ok(PrecipBelow + [Grey] + Scale255(buGn7))
    else
      Err(UnsupportedColors)
  }

  /**
   Every colour a table yields is a valid [0, 1] colour, provided the
   palette passed in uses 0-255 channels.
   */
  lemma ColorsInUnitRange(name: string, buGn7: seq<Rgb>)
    requires forall i :: 0 <= i < |buGn7| ==> ByteRgb(buGn7[i])
    requires GetColors(name, buGn7).Ok?
    ensures forall i :: 0 <= i < |GetColors(name, buGn7).value| ==> UnitRgb(GetColors(name, buGn7).value[i])
  {
    var r := GetColors(name, buGn7).value;
    if name == "precip-terciles" {
      forall i | 0 <= i < |r|
        ensures UnitRgb(r[i])
      {
        if i >= 8 {
          var c := buGn7[i - 8];
          assert r[i] == Rgb(c.r / 255.0, c.g / 255.0, c.b / 255.0);
        }
      }
    }
  }

  // ---------------------------------------------------------------------------
  // Argument checks of _make_plot
  // ---------------------------------------------------------------------------

  datatype PlotError =
    | RangesMismatch         // one of lat_range / lon_range given without the other
    | UnsupportedRegion      // no ranges and a region outside US, CONUS, global
    | GlobalNeedsMercator    // region 'global' with another projection
    | UnsupportedProjection  // neither 'mercator' nor 'lcc' nor 'equal-area'
    | RangeTooShort          // IndexError: a given range without a second entry
    | NoMapForRegion         // UnboundLocalError: a conic map for a region it has no size for
    | UnsupportedCbarEnds    // cbar_ends neither 'triangular' nor 'square'

  /** Lower-left and upper-right corners of a map. */
  datatype Box = Box(latLo: real, latHi: real, lonLo: real, lonHi: real)

  /** The map the checks settle on. */
  datatype Frame =
    | Mercator(box: Box, lineInterval: nat)
    | ConicCorners(basemapProjection: string, box: Box)
    | ConicCentred(basemapProjection: string, width: nat, height: nat, lat0: real, lon0: real)

  /** What the checks hand on to the drawing code: the frame and the colour-bar `extend`. */
  datatype PlotSetup = PlotSetup(frame: Frame, extend: string)

  /** Truthiness of a range tuple: present and non-empty. */
  predicate RangeGiven(r: Option<seq<real>>) {
    r.Some? && |r.value| > 0
  }

  const SupportedRegions: set<string> := {"US", "CONUS", "global"}

  /** Both ranges were given: they override the region. */
  predicate BothRanges(latRange: Option<seq<real>>, lonRange: Option<seq<real>>) {
    RangeGiven(latRange) && RangeGiven(lonRange)
  }

  /**
   Either both ranges are given, or neither is and the region is a supported
   one; anything in between is refused.
   */
  function CheckRanges(latRange: Option<seq<real>>, lonRange: Option<seq<real>>, region: string): (r: Option<PlotError>)
    ensures r == Some(RangesMismatch) <==> !BothRanges(latRange, lonRange) && !(latRange.None? && lonRange.None?)
    ensures r == Some(UnsupportedRegion) <==> latRange.None? && lonRange.None? && region !in SupportedRegions
    ensures r.None? <==>
      BothRanges(latRange, lonRange) || (latRange.None? && lonRange.None? && region in SupportedRegions)
  {
    if BothRanges(latRange, lonRange) then None
    else if latRange.None? && lonRange.None? then
      (if region in SupportedRegions then None else Some(UnsupportedRegion))
    else Some(RangesMismatch)
  }

  /** A global map must use the Mercator projection. */
  function CheckGlobalProjection(region: string, projection: string): (r: Option<PlotError>)
    ensures r.Some? <==> region == "global" && projection != "mercator"
    ensures r.Some? ==> r.value == GlobalNeedsMercator
  {
    if region == "global" && projection != "mercator" then Some(GlobalNeedsMercator) else None
  }

  /** The corners named by explicit ranges: (first, second) of each. */
  function RangeBox(latRange: seq<real>, lonRange: seq<real>): (r: Result<Box, PlotError>)
    ensures r.Err? <==> |latRange| < 2 || |lonRange| < 2
    ensures r.Err? ==> r.error == RangeTooShort
    ensures r.Ok? ==> r.value == Box(latRange[0], latRange[1], lonRange[0], lonRange[1])
  {
    if |latRange| < 2 || |lonRange| < 2 then Err(RangeTooShort)
    else Ok(Box(latRange[0], latRange[1], lonRange[0], lonRange[1]))
  }

  /** Box and meridian spacing of a Mercator map drawn for a named region. */
  function RegionFrame(region: string): (f: Frame)
    ensures f.Mercator?
    ensures f.box.latLo < f.box.latHi && f.box.lonLo < f.box.lonHi
    ensures region == "US" ==> f == Mercator(Box(25.0, 72.0, 190.0, 300.0), 10)
    ensures region == "CONUS" ==> f == Mercator(Box(24.0, 50.0, 230.0, 295.0), 5)
    ensures region != "US" && region != "CONUS" ==> f == Mercator(Box(-90.0, 90.0, 0.0, 360.0), 30)
  {
    if region == "US" then Mercator(Box(25.0, 72.0, 190.0, 300.0), 10)
    else if region == "CONUS" then Mercator(Box(24.0, 50.0, 230.0, 295.0), 5)
    else Mercator(Box(-90.0, 90.0, 0.0, 360.0), 30)
  }

  /**
   The size and centre of a conic map drawn for a named region; only US and
   CONUS have one.
   */
  function RegionConic(basemapProjection: string, region: string): (r: Result<Frame, PlotError>)
    ensures r.Ok? <==> region in {"US", "CONUS"}
    ensures r.Err? ==> r.error == NoMapForRegion
    ensures r.Ok? ==> r.value.ConicCentred? && r.value.basemapProjection == basemapProjection
    ensures region == "US" ==> r == Ok(ConicCentred(basemapProjection, 8000000, 6600000, 53.0, 260.0))
    ensures region == "CONUS" ==> r == Ok(ConicCentred(basemapProjection, 5000000, 3200000, 39.0, 262.0))
  {
    if region == "US" then Ok(ConicCentred(basemapProjection, 8000000, 6600000, 53.0, 260.0))
    else if region == "CONUS" then Ok(ConicCentred(basemapProjection, 5000000, 3200000, 39.0, 262.0))
    else Err(NoMapForRegion)
  }

  /**
   The map for a projection. Mercator spans the given ranges with meridians
   every 30 degrees, or the region's box. Lambert conformal ('lcc') and
   Lambert azimuthal equal-area ('laea') maps span the given ranges, or the
   region's centred view. Any other projection is refused.
   */
  function MapFrame(latRange: Option<seq<real>>, lonRange: Option<seq<real>>, region: string, projection: string)
    : (r: Result<Frame, PlotError>)
    ensures r == Err(UnsupportedProjection) <==> projection !in {"mercator", "lcc", "equal-area"}
    ensures r.Ok? ==> (r.value.Mercator? <==> projection == "mercator")
    ensures r.Ok? && !r.value.Mercator? ==>
      r.value.basemapProjection == (if projection == "lcc" then "lcc" else "laea")
    ensures r == Err(RangeTooShort) <==>
      && projection in {"mercator", "lcc", "equal-area"} && BothRanges(latRange, lonRange)
      && (|latRange.value| < 2 || |lonRange.value| < 2)
    ensures r == Err(NoMapForRegion) <==>
      projection in {"lcc", "equal-area"} && !BothRanges(latRange, lonRange) && region !in {"US", "CONUS"}
    ensures projection == "mercator" && !BothRanges(latRange, lonRange) ==> r == Ok(RegionFrame(region))
    ensures r.Ok? && BothRanges(latRange, lonRange) ==>
      var box := Box(latRange.value[0], latRange.value[1], lonRange.value[0], lonRange.value[1]);
      r.value == Mercator(box, 30) || (r.value.ConicCorners? && r.value.box == box)
    ensures projection in {"lcc", "equal-area"} && !BothRanges(latRange, lonRange) ==>
      r == RegionConic(if projection == "lcc" then "lcc" else "laea", region)
    ensures r.Err? ==> r.error in {UnsupportedProjection, RangeTooShort, NoMapForRegion}
    ensures r.Ok? <==>
      && projection in {"mercator", "lcc", "equal-area"}
      && (BothRanges(latRange, lonRange) ==> |latRange.value| >= 2 && |lonRange.value| >= 2)
      && (projection != "mercator" && !BothRanges(latRange, lonRange) ==> region in {"US", "CONUS"})
  {
    if projection !in {"mercator", "lcc", "equal-area"} then Err(UnsupportedProjection)
    else
      var basemap := if projection == "lcc" then "lcc" else "laea";
      if BothRanges(latRange, lonRange) then
        var box := RangeBox(latRange.value, lonRange.value);
        if box.Err? then Err(box.error)
        else if projection == "mercator" then Ok(Mercator(box.value, 30))
        else Ok(ConicCorners(basemap, box.value))
      else if projection == "mercator" then Ok(RegionFrame(region))
      else RegionConic(basemap, region)
  }

  /** The colour-bar `extend` for `cbar_ends`: triangular ends extend both ways, square ends neither. */
  function CbarExtend(cbarEnds: string): (r: Result<string, PlotError>)
    ensures r == Ok("both") <==> cbarEnds == "triangular"
    ensures r == Ok("neither") <==> cbarEnds == "square"
    ensures r == Err(UnsupportedCbarEnds) <==> cbarEnds != "triangular" && cbarEnds != "square"
  {
    if cbarEnds == "triangular" then Ok("both")
    else if cbarEnds == "square" then Ok("neither")
    else Err(UnsupportedCbarEnds)
  }

  /**
   The region, range, projection and colour-bar checks of `_make_plot`, in
   the order it makes them; the first failing one decides the error.
   */
  function CheckPlotArgs(latRange: Option<seq<real>>, lonRange: Option<seq<real>>,
                         region: string, projection: string, cbarEnds: string)
    : (r: Result<PlotSetup, PlotError>)
    ensures r == Err(RangesMismatch) <==>
      !BothRanges(latRange, lonRange) && !(latRange.None? && lonRange.None?)
    ensures r == Err(UnsupportedRegion) <==>
      latRange.None? && lonRange.None? && region !in SupportedRegions
    ensures r == Err(GlobalNeedsMercator) <==>
      && CheckRanges(latRange, lonRange, region).None?
      && region == "global" && projection != "mercator"
    ensures r == Err(UnsupportedProjection) <==>
      && CheckRanges(latRange, lonRange, region).None?
      && CheckGlobalProjection(region, projection).None?
      && projection !in {"mercator", "lcc", "equal-area"}
    ensures r == Err(RangeTooShort) <==>
      && CheckRanges(latRange, lonRange, region).None?
      && CheckGlobalProjection(region, projection).None?
      && projection in {"mercator", "lcc", "equal-area"}
      && BothRanges(latRange, lonRange) && (|latRange.value| < 2 || |lonRange.value| < 2)
    ensures r != Err(NoMapForRegion)
    ensures r == Err(UnsupportedCbarEnds) <==>
      && CheckRanges(latRange, lonRange, region).None?
      && CheckGlobalProjection(region, projection).None?
      && MapFrame(latRange, lonRange, region, projection).Ok?
      && cbarEnds !in {"triangular", "square"}
    ensures r.Ok? <==>
      && CheckRanges(latRange, lonRange, region).None?
      && (region == "global" ==> projection == "mercator")
      && projection in {"mercator", "lcc", "equal-area"}
      && (BothRanges(latRange, lonRange) ==> |latRange.value| >= 2 && |lonRange.value| >= 2)
      && cbarEnds in {"triangular", "square"}
    ensures r.Ok? ==>
      && (r.value.extend == "both" <==> cbarEnds == "triangular")
      && (r.value.extend == "neither" <==> cbarEnds == "square")
      && (r.value.frame.Mercator? <==> projection == "mercator")
      && r.value.frame == MapFrame(latRange, lonRange, region, projection).value
  {
    var ranges := CheckRanges(latRange, lonRange, region);
    var global := CheckGlobalProjection(region, projection);
    if ranges.Some? then Err(ranges.value)
    else if global.Some? then Err(global.value)
    else
      var frame := MapFrame(latRange, lonRange, region, projection);
      var extend := CbarExtend(cbarEnds);
      if frame.Err? then Err(frame.error)
      else if extend.Err? then Err(extend.error)
      else Ok(PlotSetup(frame.value, extend.value))
  }

  /** A map without explicit ranges frames the region it was asked for. */
  lemma RegionDefaults()
    ensures CheckPlotArgs(None, None, "US", "mercator", "square")
      == Ok(PlotSetup(Mercator(Box(25.0, 72.0, 190.0, 300.0), 10), "neither"))
    ensures CheckPlotArgs(None, None, "CONUS", "mercator", "triangular")
      == Ok(PlotSetup(Mercator(Box(24.0, 50.0, 230.0, 295.0), 5), "both"))
    ensures CheckPlotArgs(None, None, "global", "mercator", "triangular")
      == Ok(PlotSetup(Mercator(Box(-90.0, 90.0, 0.0, 360.0), 30), "both"))
    ensures CheckPlotArgs(None, None, "CONUS", "equal-area", "square")
      == Ok(PlotSetup(ConicCentred("laea", 5000000, 3200000, 39.0, 262.0), "neither"))
    ensures CheckPlotArgs(Some([20.0]), Some([200.0, 300.0]), "US", "lcc", "square") == Err(RangeTooShort)
  {
  }
}

=== FILE: poe.dfy ===
/**
 The ensemble probability-of-exceedance (POE) code: the part of `make_poe`
 after the kernel density is built (cumulative sum, normalisation to a POE
 curve, selection of the rows nearest the requested percentiles) and
 `poe_to_terciles`. The density itself comes from Gaussian kernels and is an
 input here: any non-negative grid.
 */
module Poe {
  import opened Common
  import opened RealArith
  import opened Nearest

  // ---------------------------------------------------------------------------
  // Sums
  // ---------------------------------------------------------------------------

  /** The sum of the first `n` entries, accumulated from the front. */
  function Running(xs: seq<real>, n: nat): real
    requires n <= |xs|
  {
    if n == 0 then 0.0 else Running(xs, n - 1) + xs[n - 1]
  }

  /** The sum of a whole sequence. */
  function Sum(xs: seq<real>): real {
    Running(xs, |xs|)
  }

  predicate NonNegative(xs: seq<real>) {
    forall i :: 0 <= i < |xs| ==> xs[i] >= 0.0
  }

  /** The first `n` entries of `numpy.cumsum`, built one running total at a time. */
  function CumSumUpTo(xs: seq<real>, n: nat): (r: seq<real>)
    requires n <= |xs|
    ensures |r| == n
    ensures forall i :: 0 <= i < n ==> r[i] == Running(xs, i + 1)
  {
    if n == 0 then [] else CumSumUpTo(xs, n - 1) + [Running(xs, n)]
  }

  /** `numpy.cumsum`: entry i is the sum of the first i + 1 entries. */
  function CumSum(xs: seq<real>): (r: seq<real>)
    ensures |r| == |xs|
    ensures forall i :: 0 <= i < |xs| ==> r[i] == Running(xs, i + 1)
  {
    CumSumUpTo(xs, |xs|)
  }

  /** `numpy.max` of a non-empty sequence. */
  function MaxOf(xs: seq<real>): (m: real)
    requires |xs| > 0
    ensures m in xs
    ensures forall i :: 0 <= i < |xs| ==> xs[i] <= m
  {
    if |xs| == 1 then xs[0]
    else
      var rest := MaxOf(xs[1..]);
      if xs[0] >= rest then xs[0] else rest
  }

  /** A running sum of non-negative terms is non-negative. */
  lemma {:induction false} RunningNonNegative(xs: seq<real>, n: nat)
    requires NonNegative(xs) && n <= |xs|
    ensures Running(xs, n) >= 0.0
  {
    if n > 0 {
      RunningNonNegative(xs, n - 1);
    }
  }

  /** Over non-negative terms the running sum only grows. */
  lemma {:induction false} RunningMonotone(xs: seq<real>, i: nat, j: nat)
    requires NonNegative(xs) && i <= j <= |xs|
    ensures Running(xs, i) <= Running(xs, j)
    decreases j - i
  {
    if i < j {
      RunningMonotone(xs, i, j - 1);
    }
  }

  /** Over a non-negative density the largest running sum is the total. */
  lemma MaxOfCumSum(pdf: seq<real>)
    requires |pdf| > 0 && NonNegative(pdf)
    ensures MaxOf(CumSum(pdf)) == Sum(pdf)
  {
    var c := CumSum(pdf);
    forall i | 0 <= i < |c|
      ensures c[i] <= Sum(pdf)
    {
      RunningMonotone(pdf, i + 1, |pdf|);
    }
    assert c[|c| - 1] == Sum(pdf);
  }

  // ---------------------------------------------------------------------------
  // From density to POE
  // ---------------------------------------------------------------------------

  /** Number of points of the standardised x axis. */
  const NumXVals: nat := 1000

  /** Point i of `numpy.linspace(-4, 4, 1000)`: -4 plus i steps of 8 / 999. */
  function Tick(i: nat): real {
    -4.0 + (i as real) * (8.0 / 999.0)
  }

  lemma TickMonotone(i: nat, j: nat)
    requires i <= j
    ensures Tick(i) <= Tick(j)
  {
    MulMonotone(i as real, j as real, 8.0 / 999.0);
  }

  /** `numpy.linspace(-4, 4, 1000)`. */
  function XGrid(): (x: seq<real>)
    ensures |x| == NumXVals
    ensures x[0] == -4.0 && x[NumXVals - 1] == 4.0
    ensures Ascending(x)
  {
    var x := seq(NumXVals, i requires 0 <= i < NumXVals => Tick(i));
    assert forall i, j :: 0 <= i <= j < NumXVals ==> Tick(i) <= Tick(j) by {
      forall i, j | 0 <= i <= j < NumXVals
        ensures Tick(i) <= Tick(j)
      {
        TickMonotone(i, j);
      }
    }
    x
  }

  /**
   `1 - cumsum(pdf) / max(cumsum(pdf))` along the x axis at one location.
   With a positive total, entry i is one minus the share of the density up
   to and including x[i]; a density that is zero everywhere divides 0 by 0
   and gives NaN throughout.
   */
  function FinalPoeColumn(pdf: seq<real>): (r: seq<Float>)
    requires |pdf| > 0 && NonNegative(pdf)
    ensures |r| == |pdf|
    ensures Sum(pdf) > 0.0 ==>
      forall i :: 0 <= i < |pdf| ==> r[i] == Some(1.0 - Running(pdf, i + 1) / Sum(pdf))
    ensures Sum(pdf) == 0.0 ==> forall i :: 0 <= i < |pdf| ==> r[i] == NaN
  {
    var c := CumSum(pdf);
    MaxOfCumSum(pdf);
    var m := MaxOf(c);
    if m == 0.0 then seq(|pdf|, i => NaN)
    else seq(|pdf|, i requires 0 <= i < |pdf| => Some(1.0 - c[i] / m))
  }

  /**
   A POE curve built from a density with positive total lies in [0, 1],
   never increases along x, and reaches exactly 0 at the last point.
   */
  lemma PoeCurveShape(pdf: seq<real>)
    requires |pdf| > 0 && NonNegative(pdf) && Sum(pdf) > 0.0
    ensures var r := FinalPoeColumn(pdf);
      && NoNan(r)
      && (forall i :: 0 <= i < |r| ==> 0.0 <= r[i].value <= 1.0)
      && (forall i, j :: 0 <= i <= j < |r| ==> r[j].value <= r[i].value)
      && r[|r| - 1] == Some(0.0)
  {
    var r, s := FinalPoeColumn(pdf), Sum(pdf);
    DivSelf(s);
    forall i | 0 <= i < |r|
      ensures 0.0 <= r[i].value <= 1.0
    {
      RunningNonNegative(pdf, i + 1);
      RunningMonotone(pdf, i + 1, |pdf|);
      DivMonotone(0.0, Running(pdf, i + 1), s);
      DivMonotone(Running(pdf, i + 1), s, s);
    }
    forall i, j | 0 <= i <= j < |r|
      ensures r[j].value <= r[i].value
    {
      RunningMonotone(pdf, i + 1, j + 1);
      DivMonotone(Running(pdf, i + 1), Running(pdf, j + 1), s);
    }
  }

  /** A grid stored row by row whose rows all have `cols` entries. */
  predicate Rectangular<T>(m: seq<seq<T>>, cols: nat) {
    forall i :: 0 <= i < |m| ==> |m[i]| == cols
  }

  /** `m[:, g]`. */
  function ColumnOf<T>(m: seq<seq<T>>, cols: nat, g: nat): (col: seq<T>)
    requires Rectangular(m, cols) && g < cols
    ensures |col| == |m| && forall i :: 0 <= i < |m| ==> col[i] == m[i][g]
  {
    seq(|m|, i requires 0 <= i < |m| => m[i][g])
  }

  /** Every density value is non-negative. */
  predicate DensityGrid(pdf: seq<seq<real>>, locations: nat) {
    && |pdf| > 0 && Rectangular(pdf, locations)
    && forall i, g :: 0 <= i < |pdf| && 0 <= g < locations ==> pdf[i][g] >= 0.0
  }

  lemma DensityColumn(pdf: seq<seq<real>>, locations: nat, g: nat)
    requires DensityGrid(pdf, locations) && g < locations
    ensures NonNegative(ColumnOf(pdf, locations, g))
  {
  }

  /** `final_poe[k, g]`: the POE curve of location `g` at x index `k`. */
  function PoeCell(pdf: seq<seq<real>>, locations: nat, k: nat, g: nat): (r: Float)
    requires DensityGrid(pdf, locations) && k < |pdf| && g < locations
    ensures var col := ColumnOf(pdf, locations, g);
      && NonNegative(col)
      && (Sum(col) > 0.0 ==> r == Some(1.0 - Running(col, k + 1) / Sum(col)))
      && (Sum(col) == 0.0 ==> r == NaN)
  {
    DensityColumn(pdf, locations, g);
    FinalPoeColumn(ColumnOf(pdf, locations, g))[k]
  }

  /**
   `output[:, g] = final_poe[ptile_indexes, g]` for every location `g`: one
   row per requested percentile, each read off the POE curve of its
   location at the chosen x index.
   */
  function SelectPoeRows(pdf: seq<seq<real>>, locations: nat, ptileIndexes: seq<nat>): (out: seq<seq<Float>>)
    requires DensityGrid(pdf, locations)
    requires forall i :: 0 <= i < |ptileIndexes| ==> ptileIndexes[i] < |pdf|
    ensures |out| == |ptileIndexes| && Rectangular(out, locations)
    ensures forall i, g :: 0 <= i < |ptileIndexes| && 0 <= g < locations ==>
      var col := ColumnOf(pdf, locations, g);
      && NonNegative(col)
      && (Sum(col) > 0.0 ==> out[i][g] == Some(1.0 - Running(col, ptileIndexes[i] + 1) / Sum(col)))
      && (Sum(col) == 0.0 ==> out[i][g] == NaN)
  {
    seq(|ptileIndexes|, i requires 0 <= i < |ptileIndexes| =>
      seq(locations, g requires 0 <= g < locations => PoeCell(pdf, locations, ptileIndexes[i], g)))
  }

  /**
   The x indexes of the requested percentiles: each standard-normal quantile
   (`norm.ppf(ptile / 100)`, an input here) is looked up on the x axis.
   */
  function PtileIndexes(quantiles: seq<real>): (idx: seq<nat>)
    ensures |idx| == |quantiles|
    ensures forall i :: 0 <= i < |idx| ==> idx[i] < NumXVals
    ensures forall i :: 0 <= i < |idx| ==>
      forall j :: 0 <= j < NumXVals ==> Distance(XGrid(), idx[i], quantiles[i]) <= Distance(XGrid(), j, quantiles[i])
  {
    seq(|quantiles|, i requires 0 <= i < |quantiles| => NearestIndex(XGrid(), quantiles[i]))
  }

  /**
   The post-density part of `make_poe`: `output[i, g]` is location `g`'s
   POE curve read at the x point closest to the `i`-th quantile.
   */
  function MakePoe(pdf: seq<seq<real>>, locations: nat, quantiles: seq<real>): (out: seq<seq<Float>>)
    requires DensityGrid(pdf, locations) && |pdf| == NumXVals
    ensures |out| == |quantiles| && Rectangular(out, locations)
    ensures forall i, g :: 0 <= i < |quantiles| && 0 <= g < locations ==>
      var k := NearestIndex(XGrid(), quantiles[i]);
      && (forall j :: 0 <= j < NumXVals ==> Distance(XGrid(), k, quantiles[i]) <= Distance(XGrid(), j, quantiles[i]))
      && out[i][g] == FinalPoeColumn(ColumnOf(pdf, locations, g))[k]
  {
    SelectPoeRows(pdf, locations, PtileIndexes(quantiles))
  }

  /**
   Requested in ascending order, the percentiles get exceedance
   probabilities that never increase down each location's column, all in
   [0, 1], wherever the location's density has a positive total.
   */
  lemma MakePoeOrdered(pdf: seq<seq<real>>, locations: nat, quantiles: seq<real>, g: nat)
    requires DensityGrid(pdf, locations) && |pdf| == NumXVals && g < locations
    requires Ascending(quantiles)
    requires Sum(ColumnOf(pdf, locations, g)) > 0.0
    ensures var out := MakePoe(pdf, locations, quantiles);
      && (forall i :: 0 <= i < |out| ==> out[i][g].Some? && 0.0 <= out[i][g].value <= 1.0)
      && (forall i, j :: 0 <= i <= j < |out| ==> out[j][g].value <= out[i][g].value)
  {
    var col := ColumnOf(pdf, locations, g);
    var idx := PtileIndexes(quantiles);
    var out := MakePoe(pdf, locations, quantiles);
    var curve := FinalPoeColumn(col);
    PoeCurveShape(col);
    forall i | 0 <= i < |out|
      ensures out[i][g] == curve[idx[i]]
    {
    }
    forall i, j | 0 <= i <= j < |out|
      ensures out[j][g].value <= out[i][g].value
    {
      NearestMonotone(XGrid(), quantiles[i], quantiles[j]);
    }
  }

  // ---------------------------------------------------------------------------
  // Terciles
  // ---------------------------------------------------------------------------

  /** Probabilities of the below-, near- and above-normal categories, per location. */
  datatype Terciles = Terciles(below: seq<real>, near: seq<real>, above: seq<real>)

  datatype PoeError =
    | MissingTercilePtile  // ValueError: 33 or 67 missing from ptiles
    | RowOutOfRange        // IndexError: the chosen row is past the last POE row

  /**
   `poe_to_terciles(poe, ptiles)`: rows of `poe` are the POE at each entry
   of `ptiles`. Below-normal is one minus the POE at the 33rd percentile,
   above-normal the POE at the 67th, and near-normal the rest.
   */
  function PoeToTerciles(poe: seq<seq<real>>, locations: nat, ptiles: seq<real>): (r: Result<Terciles, PoeError>)
    requires Rectangular(poe, locations)
    ensures r == Err(MissingTercilePtile) <==> 33.0 !in ptiles || 67.0 !in ptiles
    ensures r == Err(RowOutOfRange) <==>
      33.0 in ptiles && 67.0 in ptiles
      && (NearestIndex(ptiles, 33.0) >= |poe| || NearestIndex(ptiles, 67.0) >= |poe|)
    ensures r.Ok? ==>
      var i33, i67 := NearestIndex(ptiles, 33.0), NearestIndex(ptiles, 67.0);
      && i33 < |poe| && i67 < |poe|
      && ptiles[i33] == 33.0 && ptiles[i67] == 67.0
      && |r.value.below| == |r.value.near| == |r.value.above| == locations
      && forall g :: 0 <= g < locations ==>
        && r.value.below[g] == 1.0 - poe[i33][g]
        && r.value.above[g] == poe[i67][g]
  {
    if 33.0 !in ptiles || 67.0 !in ptiles then Err(MissingTercilePtile)
    else
      var i33, i67 := NearestIndex(ptiles, 33.0), NearestIndex(ptiles, 67.0);
      LandsOnTarget(ptiles, 33.0);
      LandsOnTarget(ptiles, 67.0);
      if i33 >= |poe| || i67 >= |poe| then Err(RowOutOfRange)
      else
        var below := seq(locations, g requires 0 <= g < locations => 1.0 - poe[i33][g]);
        var above := seq(locations, g requires 0 <= g < locations => poe[i67][g]);
        var near := seq(locations, g requires 0 <= g < locations => 1.0 - (below[g] + above[g]));
        Ok(Terciles(below, near, above))
  }

  /**
   The three categories sum to exactly one at every location, and near-normal
   is not clamped: it is non-negative exactly when the POE at the 33rd
   percentile is at least the POE at the 67th.
   */
  lemma TercilesPartition(poe: seq<seq<real>>, locations: nat, ptiles: seq<real>)
    requires Rectangular(poe, locations)
    requires PoeToTerciles(poe, locations, ptiles).Ok?
    ensures var t, i33, i67 := PoeToTerciles(poe, locations, ptiles).value,
                              NearestIndex(ptiles, 33.0), NearestIndex(ptiles, 67.0);
      forall g :: 0 <= g < locations ==>
        && t.below[g] + t.near[g] + t.above[g] == 1.0
        && (t.near[g] >= 0.0 <==> poe[i33][g] >= poe[i67][g])
  {
  }

  /** Without 33 among the percentiles the request is refused. */
  lemma MissingTercileRefused()
    ensures PoeToTerciles([[0.9], [0.5], [0.1]], 1, [10.0, 50.0, 90.0]) == Err(MissingTercilePtile)
  {
  }
}

=== FILE: ptile_order.dfy ===
/**
 Order properties of the percentile converter over a regular climatology
 (sorted column without NaN, sorted reference percentiles in [0, 1], tail
 ratio k >= 1): every observation gets a percentile in [0, 1], knots are
 respected, and a larger observation never gets a smaller percentile.
 */
module PtileOrder {
  import opened Common
  import opened Bisect
  import opened RealArith
  import opened Stats

  /** The reference percentiles of a regular climatology lie in [0, 1]. */
  lemma RefWithinUnit(c: seq<real>, ref: seq<real>, k: real, i: nat)
    requires Regular(c, ref, k) && i < |ref|
    ensures 0.0 <= ref[i] <= 1.0
  {
    assert ref[0] <= ref[i] <= ref[|ref| - 1];
  }

  /** In a sorted sequence a strictly smaller entry comes strictly earlier. */
  lemma AscendingOrder(c: seq<real>, i: nat, j: nat)
    requires Ascending(c) && i < |c| && j < |c| && c[i] < c[j]
    ensures i < j
  {
  }

  /** An exact match sits on a knot: it is bounded by the knots around it. */
  lemma KnotCase(v: real, c: seq<real>, ref: seq<real>, k: real)
    requires Regular(c, ref, k) && v in c
    ensures var r := PtileAt(Some(v), Lift(c), ref, k);
      && r.Some? && 0.0 <= r.value <= 1.0
      && (forall i :: 0 <= i < |c| && c[i] < v ==> ref[i] <= r.value)
      && (forall i :: 0 <= i < |c| && v < c[i] ==> r.value <= ref[i])
  {
    LiftMembership(c, v);
    var f := FirstIndexOf(Lift(c), v);
    assert c[f] == v;
    var r := PtileAt(Some(v), Lift(c), ref, k);
    assert r == Some(ref[f]);
    RefWithinUnit(c, ref, k, f);
    forall i | 0 <= i < |c| && c[i] < v
      ensures ref[i] <= r.value
    {
      AscendingOrder(c, i, f);
    }
    forall i | 0 <= i < |c| && v < c[i]
      ensures r.value <= ref[i]
    {
      AscendingOrder(c, f, i);
    }
  }

  /** Below the first climatology value the result is within [0, ref[0]]. */
  lemma BelowCase(v: real, c: seq<real>, ref: seq<real>, k: real)
    requires Regular(c, ref, k) && v < c[0]
    ensures var r := PtileAt(Some(v), Lift(c), ref, k);
      && r.Some? && 0.0 <= r.value <= ref[0]
      && (forall i :: 0 <= i < |c| && v < c[i] ==> r.value <= ref[i])
  {
    BelowFirstNotIn(c, v);
    TailEstimatesEnclose(c, ref, k);
    if Le(Some(v), P0(Lift(c), ref, k)) {
      SaturatesLow(v, c, ref, k);
    } else {
      LowerTail(v, c, ref, k);
    }
    var r := PtileAt(Some(v), Lift(c), ref, k);
    forall i | 0 <= i < |c| && v < c[i]
      ensures r.value <= ref[i]
    {
      assert ref[0] <= ref[i];
    }
  }

  /** Above the last climatology value the result is within [ref[last], 1]. */
  lemma AboveCase(v: real, c: seq<real>, ref: seq<real>, k: real)
    requires Regular(c, ref, k) && c[|c| - 1] < v
    ensures var r := PtileAt(Some(v), Lift(c), ref, k);
      && r.Some? && ref[|ref| - 1] <= r.value <= 1.0
      && (forall i :: 0 <= i < |c| && c[i] < v ==> ref[i] <= r.value)
  {
    AboveLastNotIn(c, v);
    LiftMembership(c, v);
    TailEstimatesEnclose(c, ref, k);
    var last := |c| - 1;
    assert Lift(c)[last] == Some(c[last]);
    if Ge(Some(v), P100(Lift(c), ref, k)) {
      SaturatesHigh(v, Lift(c), ref, k);
    } else {
      UpperTail(v, Lift(c), ref, k);
      var t := (v - c[last]) / (P100(Lift(c), ref, k).value - c[last]);
      FractionInside(v - c[last], P100(Lift(c), ref, k).value - c[last]);
      ProductNonneg(1.0 - ref[last], t);
    }
    var r := PtileAt(Some(v), Lift(c), ref, k);
    forall i | 0 <= i < |c| && c[i] < v
      ensures ref[i] <= r.value
    {
      assert ref[i] <= ref[last];
    }
  }

  /** Strictly inside the sampled range the result is bounded by the surrounding knots. */
  lemma InsideCase(v: real, c: seq<real>, ref: seq<real>, k: real)
    requires Regular(c, ref, k) && v !in c && c[0] < v < c[|c| - 1]
    ensures var r := PtileAt(Some(v), Lift(c), ref, k);
      && r.Some? && 0.0 <= r.value <= 1.0
      && (forall i :: 0 <= i < |c| && c[i] < v ==> ref[i] <= r.value)
      && (forall i :: 0 <= i < |c| && v < c[i] ==> r.value <= ref[i])
  {
    Interior(v, c, ref, k);
    BisectRightSorted(c, v);
    var j := CountAtMost(c, v);
    var r := PtileAt(Some(v), Lift(c), ref, k);
    RefWithinUnit(c, ref, k, j - 1);
    RefWithinUnit(c, ref, k, j);
    forall i | 0 <= i < |c| && c[i] < v
      ensures ref[i] <= r.value
    {
      assert i < j;
      assert ref[i] <= ref[j - 1];
    }
    forall i | 0 <= i < |c| && v < c[i]
      ensures r.value <= ref[i]
    {
      assert j <= i;
      assert ref[j] <= ref[i];
    }
  }

  /**
   Over a regular climatology every observation gets a percentile in [0, 1],
   never NaN, and no smaller than the percentile of any knot below it nor
   larger than that of any knot above it.
   */
  lemma RegularBounds(v: real, c: seq<real>, ref: seq<real>, k: real)
    requires Regular(c, ref, k)
    ensures var r := PtileAt(Some(v), Lift(c), ref, k);
      && r.Some? && 0.0 <= r.value <= 1.0
      && (forall i :: 0 <= i < |c| && c[i] < v ==> ref[i] <= r.value)
      && (forall i :: 0 <= i < |c| && v < c[i] ==> r.value <= ref[i])
  {
    var last := |c| - 1;
    if v in c {
      KnotCase(v, c, ref, k);
    } else if v < c[0] {
      BelowCase(v, c, ref, k);
      RefWithinUnit(c, ref, k, 0);
    } else if c[last] < v {
      AboveCase(v, c, ref, k);
      RefWithinUnit(c, ref, k, last);
    } else {
      assert c[0] != v && c[last] != v;
      InsideCase(v, c, ref, k);
    }
  }

  /** The bracket interpolation grows with the observation. */
  lemma BracketMonotone(v1: real, v2: real, lo: real, hi: real, rlo: real, rhi: real)
    requires lo < v1 <= v2 < hi && rlo <= rhi
    ensures BracketValue(v1, lo, hi, rlo, rhi) <= BracketValue(v2, lo, hi, rlo, rhi)
  {
    DivMonotone(v1 - lo, v2 - lo, hi - lo);
    MulMonotone((v1 - lo) / (hi - lo), (v2 - lo) / (hi - lo), rhi - rlo);
  }

  /** The lower-tail value grows with the observation. */
  lemma LowerTailMonotone(v1: real, v2: real, lo: real, p0: real, r0: real)
    requires p0 < v1 <= v2 < lo && 0.0 <= r0
    ensures LowerTailValue(v1, lo, p0, r0) <= LowerTailValue(v2, lo, p0, r0)
  {
    DivMonotone(v1 - p0, v2 - p0, lo - p0);
    MulMonotone((v1 - p0) / (lo - p0), (v2 - p0) / (lo - p0), r0);
  }

  /** The upper-tail value grows with the observation. */
  lemma UpperTailMonotone(v1: real, v2: real, hi: real, p100: real, rl: real)
    requires hi < v1 <= v2 < p100 && rl <= 1.0
    ensures UpperTailValue(v1, hi, p100, rl) <= UpperTailValue(v2, hi, p100, rl)
  {
    DivMonotone(v1 - hi, v2 - hi, p100 - hi);
    MulMonotone((v1 - hi) / (p100 - hi), (v2 - hi) / (p100 - hi), 1.0 - rl);
  }

  /** Two observations below the first climatology value keep their order. */
  lemma BelowMonotone(v1: real, v2: real, c: seq<real>, ref: seq<real>, k: real)
    requires Regular(c, ref, k) && v1 <= v2 < c[0]
    ensures Le(PtileAt(Some(v1), Lift(c), ref, k), PtileAt(Some(v2), Lift(c), ref, k))
  {
    BelowCase(v1, c, ref, k);
    BelowCase(v2, c, ref, k);
    BelowFirstNotIn(c, v1);
    BelowFirstNotIn(c, v2);
    if Le(Some(v1), P0(Lift(c), ref, k)) {
      SaturatesLow(v1, c, ref, k);
    } else {
      LowerTail(v1, c, ref, k);
      LowerTail(v2, c, ref, k);
      LowerTailMonotone(v1, v2, c[0], P0(Lift(c), ref, k).value, ref[0]);
    }
  }

  /** Two observations above the last climatology value keep their order. */
  lemma AboveMonotone(v1: real, v2: real, c: seq<real>, ref: seq<real>, k: real)
    requires Regular(c, ref, k) && c[|c| - 1] < v1 <= v2
    ensures Le(PtileAt(Some(v1), Lift(c), ref, k), PtileAt(Some(v2), Lift(c), ref, k))
  {
    var last := |c| - 1;
    AboveCase(v1, c, ref, k);
    AboveCase(v2, c, ref, k);
    AboveLastNotIn(c, v1);
    AboveLastNotIn(c, v2);
    LiftMembership(c, v1);
    LiftMembership(c, v2);
    TailEstimatesEnclose(c, ref, k);
    assert Lift(c)[last] == Some(c[last]);
    if Ge(Some(v2), P100(Lift(c), ref, k)) {
      SaturatesHigh(v2, Lift(c), ref, k);
    } else {
      UpperTail(v1, Lift(c), ref, k);
      UpperTail(v2, Lift(c), ref, k);
      UpperTailMonotone(v1, v2, c[last], P100(Lift(c), ref, k).value, ref[last]);
    }
  }

  /** Two observations in the same gap between knots share the bracket and keep their order. */
  lemma SameGapMonotone(v1: real, v2: real, c: seq<real>, ref: seq<real>, k: real)
    requires Regular(c, ref, k) && c[0] < v1 <= v2 < c[|c| - 1]
    requires forall i :: 0 <= i < |c| ==> c[i] < v1 || v2 < c[i]
    ensures Le(PtileAt(Some(v1), Lift(c), ref, k), PtileAt(Some(v2), Lift(c), ref, k))
  {
    assert v1 !in c && v2 !in c;
    Interior(v1, c, ref, k);
    Interior(v2, c, ref, k);
    BisectRightSorted(c, v1);
    BisectRightSorted(c, v2);
    var j1, j2 := CountAtMost(c, v1), CountAtMost(c, v2);
    CountAtMostSplit(c, v2, j1);
    BracketMonotone(v1, v2, c[j1 - 1], c[j1], ref[j1 - 1], ref[j1]);
  }

  /** A knot strictly between two observations separates their percentiles. */
  lemma KnotBetweenMonotone(v1: real, v2: real, c: seq<real>, ref: seq<real>, k: real, i: nat)
    requires Regular(c, ref, k) && i < |c| && v1 < c[i] < v2
    ensures Le(PtileAt(Some(v1), Lift(c), ref, k), PtileAt(Some(v2), Lift(c), ref, k))
  {
    RegularBounds(v1, c, ref, k);
    RegularBounds(v2, c, ref, k);
  }

  /** An observation on a knot is no later than any larger observation. */
  lemma FromKnotMonotone(v1: real, v2: real, c: seq<real>, ref: seq<real>, k: real)
    requires Regular(c, ref, k) && v1 in c && v1 < v2
    ensures Le(PtileAt(Some(v1), Lift(c), ref, k), PtileAt(Some(v2), Lift(c), ref, k))
  {
    LiftMembership(c, v1);
    var f := FirstIndexOf(Lift(c), v1);
    assert c[f] == v1;
    assert PtileAt(Some(v1), Lift(c), ref, k) == Some(ref[f]);
    RegularBounds(v2, c, ref, k);
  }

  /** An observation on a knot is no earlier than any smaller observation. */
  lemma ToKnotMonotone(v1: real, v2: real, c: seq<real>, ref: seq<real>, k: real)
    requires Regular(c, ref, k) && v2 in c && v1 < v2
    ensures Le(PtileAt(Some(v1), Lift(c), ref, k), PtileAt(Some(v2), Lift(c), ref, k))
  {
    LiftMembership(c, v2);
    var f := FirstIndexOf(Lift(c), v2);
    assert c[f] == v2;
    assert PtileAt(Some(v2), Lift(c), ref, k) == Some(ref[f]);
    RegularBounds(v1, c, ref, k);
  }

  /**
   Over a regular climatology the conversion is monotone: a larger
   observation never gets a smaller percentile, and neither is NaN.
   */
  lemma Monotone(v1: real, v2: real, c: seq<real>, ref: seq<real>, k: real)
    requires Regular(c, ref, k) && v1 <= v2
    ensures Le(PtileAt(Some(v1), Lift(c), ref, k), PtileAt(Some(v2), Lift(c), ref, k))
  {
    var last := |c| - 1;
    if v1 == v2 {
      RegularBounds(v1, c, ref, k);
    } else if i :| 0 <= i < |c| && v1 < c[i] < v2 {
      KnotBetweenMonotone(v1, v2, c, ref, k, i);
    } else if v1 in c {
      FromKnotMonotone(v1, v2, c, ref, k);
    } else if v2 in c {
      ToKnotMonotone(v1, v2, c, ref, k);
    } else if v2 < c[0] {
      BelowMonotone(v1, v2, c, ref, k);
    } else if c[last] < v1 {
      AboveMonotone(v1, v2, c, ref, k);
    } else {
      assert c[0] != v1 && c[0] != v2 && c[last] != v1 && c[last] != v2;
      SameGapMonotone(v1, v2, c, ref, k);
    }
  }

  /**
   The tail ratio must be at least one for monotonicity: with k = 0.5 the
   estimated 0th percentile falls inside the sampled range, so 1.0 sits on
   the first knot (percentile 0.25) while the larger 1.2 is already
   saturated to 0.
   */
  lemma SmallTailRatioBreaksOrder()
    ensures var c, ref := [1.0, 2.0, 3.0], [0.25, 0.5, 0.75];
      && Ascending(c) && Ascending(ref)
      && PtileAt(Some(1.0), Lift(c), ref, 0.5) == Some(0.25)
      && PtileAt(Some(1.2), Lift(c), ref, 0.5) == Some(0.0)
  {
    var c, ref := [1.0, 2.0, 3.0], [0.25, 0.5, 0.75];
    assert Ascending(ref);
    var m := MidIndex(ref);
    assert m == 1;
    assert Ascending(c);
    assert 1.2 !in c;
    LiftMembership(c, 1.0);
    LiftMembership(c, 1.2);
    assert Lift(c)[0] == Some(1.0);
    assert P0(Lift(c), ref, 0.5) == Some(1.5);
  }
}

=== FILE: stats.dfy ===
/**
 The percentile converter `values_to_ptiles`: each observation is mapped to
 a percentile of the climatology at its own location. A Gaussian-tail
 heuristic with ratio `k` extends the sampled percentiles down to the 0th
 and up to the 100th.
 */
module Stats {
  import opened Common
  import opened Bisect
  import opened RealArith

  /** A NumPy array: its shape and its elements in row-major order. */
  datatype NdArray<T> = NdArray(shape: seq<nat>, data: seq<T>)

  function Product(dims: seq<nat>): nat {
    if |dims| == 0 then 1 else dims[0] * Product(dims[1..])
  }

  /** The element count agrees with the shape. */
  predicate WellFormed<T>(a: NdArray<T>) {
    |a.data| == Product(a.shape)
  }

  datatype StatsError =
    | RefPtilesNotVector     // ref_ptiles.ndim != 1
    | ValuesNotVector        // array.ndim != 1
    | ClimoNotMatrix         // climo.ndim != 2
    | LocationCountMismatch  // len(array) != climo.shape[1]
    | PtileCountMismatch     // climo.shape[0] != len(ref_ptiles)
    | CalculationFailed      // an exception inside the per-location computation

  lemma RowMajorIndex(rows: nat, cols: nat, i: nat, j: nat)
    requires i < rows && j < cols
    ensures i * cols + j < rows * cols
  {
    assert i * cols + j < i * cols + cols == (i + 1) * cols;
    assert (i + 1) * cols <= rows * cols;
  }

  lemma ProductTwo(dims: seq<nat>)
    ensures |dims| == 2 ==> Product(dims) == dims[0] * dims[1]
  {
    if |dims| == 2 {
      assert dims[1..][1..] == [];
      assert Product(dims[1..]) == dims[1] * Product(dims[1..][1..]) == dims[1];
    }
  }

  /** `climo[i, j]` of a 2-D array. */
  function At(climo: NdArray<Float>, i: nat, j: nat): Float
    requires WellFormed(climo) && |climo.shape| == 2
    requires i < climo.shape[0] && j < climo.shape[1]
  {
    ProductTwo(climo.shape);
    RowMajorIndex(climo.shape[0], climo.shape[1], i, j);
    climo.data[i * climo.shape[1] + j]
  }

  /** Column `loc` of a 2-D array: `climo[:, loc]`. */
  function Column(climo: NdArray<Float>, loc: nat): (col: seq<Float>)
    requires WellFormed(climo) && |climo.shape| == 2 && loc < climo.shape[1]
    ensures |col| == climo.shape[0]
    ensures forall i :: 0 <= i < |col| ==> col[i] == At(climo, i, loc)
  {
    seq(climo.shape[0], i requires 0 <= i < climo.shape[0] => At(climo, i, loc))
  }

  /**
   The row taken for the median: `bisect(ref_ptiles, 0.50) - 1`, that is the
   last reference percentile not above one half. When every reference
   percentile is above one half the index is -1, which Python reads as the
   last row.
   */
  function MidIndex(ref: seq<real>): (m: nat)
    requires |ref| > 0
    ensures m < |ref|
    ensures Ascending(ref) && ref[0] <= 0.5 ==>
      ref[m] <= 0.5 && (m + 1 == |ref| || 0.5 < ref[m + 1])
    ensures Ascending(ref) && 0.5 < ref[0] ==> m == |ref| - 1
  {
    var b := BisectRight(Lift(ref), 0.5);
    HalfSplitsSorted(ref);
    PyIndex(b - 1, |ref|)
  }

  lemma HalfSplitsSorted(ref: seq<real>)
    ensures Ascending(ref) ==>
      var b := BisectRight(Lift(ref), 0.5);
      (forall i :: 0 <= i < b ==> ref[i] <= 0.5) && (forall i :: b <= i < |ref| ==> 0.5 < ref[i])
  {
    if Ascending(ref) {
      BisectRightSorted(ref, 0.5);
    }
  }

  /** `k * (at - mid) + mid`: a percentile pushed out by the tail ratio `k`. */
  function Extrapolate(k: real, at: Float, mid: Float): (p: Float)
    ensures p.Some? <==> at.Some? && mid.Some?
    ensures p.Some? ==> p.value - mid.value == k * (at.value - mid.value)
  {
    if at.Some? && mid.Some? then Some(k * (at.value - mid.value) + mid.value) else NaN
  }

  /** The estimated 100th-percentile value at a location. */
  function P100(col: seq<Float>, ref: seq<real>, k: real): (p: Float)
    requires |col| == |ref| > 0
    ensures var last, m := |col| - 1, MidIndex(ref);
      && (p.Some? <==> col[last].Some? && col[m].Some?)
      && (p.Some? ==> p.value - col[m].value == k * (col[last].value - col[m].value))
  {
    Extrapolate(k, col[|col| - 1], col[MidIndex(ref)])
  }

  /** The estimated 0th-percentile value at a location. */
  function P0(col: seq<Float>, ref: seq<real>, k: real): (p: Float)
    requires |col| == |ref| > 0
    ensures var m := MidIndex(ref);
      && (p.Some? <==> col[0].Some? && col[m].Some?)
      && (p.Some? ==> p.value - col[m].value == k * (col[0].value - col[m].value))
  {
    Extrapolate(k, col[0], col[MidIndex(ref)])
  }

  /** `numpy.argwhere(col == v)[0][0]`: the first row holding `v`. */
  function FirstIndexOf(col: seq<Float>, v: real): (i: nat)
    requires Some(v) in col
    ensures i < |col| && col[i] == Some(v)
    ensures forall j :: 0 <= j < i ==> col[j] != Some(v)
  {
    if col[0] == Some(v) then 0 else 1 + FirstIndexOf(col[1..], v)
  }

  /**
   The upper-tail formula: ref[last] plus the fraction of the way the
   observation has gone from the last climatology value `hi` towards the
   estimated 100th percentile, applied to the remaining 1 - ref[last].
   */
  function UpperTailValue(v: real, hi: real, p100: real, rl: real): (r: real)
    requires hi < v < p100
    ensures r - rl == (1.0 - rl) * ((v - hi) / (p100 - hi))
    ensures rl < 1.0 ==> rl < r < 1.0
    ensures rl == 1.0 ==> r == 1.0
  {
    FractionInside(v - hi, p100 - hi);
    if rl < 1.0 then
      LerpInside((v - hi) / (p100 - hi), rl, 1.0);
      rl + (v - hi) / (p100 - hi) * (1.0 - rl)
    else
      rl + (v - hi) / (p100 - hi) * (1.0 - rl)
  }

  /**
   The lower-tail formula: ref[0] scaled down by how far the observation is
   from the first climatology value `lo` towards the estimated 0th
   percentile.
   */
  function LowerTailValue(v: real, lo: real, p0: real, r0: real): (r: real)
    requires p0 < v < lo
    ensures r == r0 * ((v - p0) / (lo - p0))
    ensures 0.0 <= r0 ==> 0.0 <= r <= r0
    ensures 0.0 < r0 ==> 0.0 < r < r0
  {
    var s := (v - p0) / (lo - p0);
    Complement(v, lo, p0);
    assert (v - lo) / (p0 - lo) * (0.0 - r0) == (1.0 - s) * (0.0 - r0);
    FractionInside(v - p0, lo - p0);
    if 0.0 <= r0 then
      LerpInside(s, 0.0, r0);
      r0 + (v - lo) / (p0 - lo) * (0.0 - r0)
    else
      r0 + (v - lo) / (p0 - lo) * (0.0 - r0)
  }

  /**
   Linear interpolation between two bracketing rows (lo, rlo) and (hi, rhi):
   (v, r) lies on the line through the two knots, so the result stays
   between the two percentiles.
   */
  function BracketValue(v: real, lo: real, hi: real, rlo: real, rhi: real): (r: real)
    requires lo < v < hi
    ensures (r - rlo) * (hi - lo) == (rhi - rlo) * (v - lo)
    ensures rlo <= rhi ==> rlo <= r <= rhi
    ensures rlo < rhi ==> rlo < r < rhi
  {
    FractionInside(v - lo, hi - lo);
    if rlo <= rhi then
      LerpInside((v - lo) / (hi - lo), rlo, rhi);
      rlo + (rhi - rlo) * ((v - lo) / (hi - lo))
    else
      rlo + (rhi - rlo) * ((v - lo) / (hi - lo))
  }

  /**
   Interpolation between the two climatology rows that bracket `v`, found by
   bisecting the column. The bracket is never the wrapped-around row -1 nor
   past the end; the result is NaN when the lower row is NaN.
   */
  function Interpolate(col: seq<Float>, ref: seq<real>, v: real): (r: Float)
    requires |col| == |ref| > 0
    requires Gt(Some(v), col[0]) && Lt(Some(v), col[|col| - 1])
    requires Some(v) !in col
    ensures var j := BisectRight(col, v);
      && 1 <= j < |col|
      && (r.Some? <==> col[j - 1].Some?)
      && (r.Some? ==> col[j - 1].value < v < col[j].value
                      && r.value == BracketValue(v, col[j - 1].value, col[j].value, ref[j - 1], ref[j]))
  {
    var j := BisectRight(col, v);
    if col[j - 1].None? then NaN
    else Some(BracketValue(v, col[j - 1].value, col[j].value, ref[j - 1], ref[j]))
  }

  /**
   The percentile of one observation against one location's climatology
   column: the branch cascade of `values_to_ptiles`, in the source's order.
   */
  function PtileAt(obs: Float, col: seq<Float>, ref: seq<real>, k: real): (r: Float)
    requires |col| == |ref|
    requires |ref| > 0 || obs.None?
    ensures obs.None? ==> r.None?
    ensures obs.Some? && obs in col ==> r.Some? && r.value in ref
  {
    if obs.None? then NaN
    else
      var v := obs.value;
      var last := |ref| - 1;
      var p100 := P100(col, ref, k);
      var p0 := P0(col, ref, k);
      if obs in col then
        Some(ref[FirstIndexOf(col, v)])
      else if Ge(obs, p100) then
        Some(1.0)
      else if Gt(obs, col[last]) && Lt(obs, p100) then
        Some(UpperTailValue(v, col[last].value, p100.value, ref[last]))
      else if Le(obs, p0) then
        Some(0.0)
      else if Lt(obs, col[0]) && Gt(obs, p0) then
        Some(LowerTailValue(v, col[0].value, p0.value, ref[0]))
      else if Gt(obs, col[0]) && Lt(obs, col[last]) then
        Interpolate(col, ref, v)
      else
        NaN
  }

  /**
   `values_to_ptiles(array, climo, ref_ptiles, k)`. Shapes are validated, in
   the source's order, before any location is looked at; then every location
   is converted on its own. The only failure inside the conversion is an
   empty percentile table met by an observation that is not NaN (indexing
   row -1 of an empty column).
   */
  function ValuesToPtiles(values: NdArray<Float>, climo: NdArray<Float>, refPtiles: NdArray<real>, k: real)
    : (r: Result<seq<Float>, StatsError>)
    requires WellFormed(values) && WellFormed(climo) && WellFormed(refPtiles)
    ensures r == Err(RefPtilesNotVector) <==> |refPtiles.shape| != 1
    ensures r == Err(ValuesNotVector) <==> |refPtiles.shape| == 1 && |values.shape| != 1
    ensures r == Err(ClimoNotMatrix) <==>
      |refPtiles.shape| == 1 && |values.shape| == 1 && |climo.shape| != 2
    ensures r == Err(LocationCountMismatch) <==>
      |refPtiles.shape| == 1 && |values.shape| == 1 && |climo.shape| == 2
      && |values.data| != climo.shape[1]
    ensures r == Err(PtileCountMismatch) <==>
      |refPtiles.shape| == 1 && |values.shape| == 1 && |climo.shape| == 2
      && |values.data| == climo.shape[1] && climo.shape[0] != |refPtiles.data|
    ensures r == Err(CalculationFailed) <==>
      |refPtiles.shape| == 1 && |values.shape| == 1 && |climo.shape| == 2
      && |values.data| == climo.shape[1] && climo.shape[0] == |refPtiles.data|
      && |refPtiles.data| == 0 && !forall loc :: 0 <= loc < |values.data| ==> values.data[loc].None?
    ensures r.Ok? ==> |r.value| == |values.data|
    ensures r.Ok? ==> forall loc :: 0 <= loc < |values.data| ==>
      |values.data| == climo.shape[1] && climo.shape[0] == |refPtiles.data|
      && r.value[loc] == PtileAt(values.data[loc], Column(climo, loc), refPtiles.data, k)
  {
    ProductOne(values.shape);
    ProductOne(refPtiles.shape);
    if |refPtiles.shape| != 1 then Err(RefPtilesNotVector)
    else if |values.shape| != 1 then Err(ValuesNotVector)
    else if |climo.shape| != 2 then Err(ClimoNotMatrix)
    else if values.shape[0] != climo.shape[1] then Err(LocationCountMismatch)
    else if climo.shape[0] != refPtiles.shape[0] then Err(PtileCountMismatch)
    else if |refPtiles.data| == 0 && exists loc :: 0 <= loc < |values.data| && values.data[loc].Some? then
      Err(CalculationFailed)
    else
      Ok(seq(|values.data|, loc requires 0 <= loc < |values.data| =>
        PtileAt(values.data[loc], Column(climo, loc), refPtiles.data, k)))
  }

  /**
   Locations are converted independently: changing the observation at one
   location changes no other location's percentile, and a NaN observation
   gives NaN where it stands.
   */
  lemma LocationsIndependent(values1: NdArray<Float>, values2: NdArray<Float>, climo: NdArray<Float>,
                             refPtiles: NdArray<real>, k: real, at: nat)
    requires WellFormed(values1) && WellFormed(values2) && WellFormed(climo) && WellFormed(refPtiles)
    requires values1.shape == values2.shape && at < |values1.data|
    requires forall loc :: 0 <= loc < |values1.data| && loc != at ==> values1.data[loc] == values2.data[loc]
    requires ValuesToPtiles(values1, climo, refPtiles, k).Ok? && ValuesToPtiles(values2, climo, refPtiles, k).Ok?
    ensures var r1, r2 := ValuesToPtiles(values1, climo, refPtiles, k).value, ValuesToPtiles(values2, climo, refPtiles, k).value;
      && |r1| == |r2|
      && (forall loc :: 0 <= loc < |r1| && loc != at ==> r1[loc] == r2[loc])
      && (values1.data[at].None? ==> r1[at].None?)
  {
  }

  lemma ProductOne(dims: seq<nat>)
    ensures |dims| == 1 ==> Product(dims) == dims[0]
  {
    if |dims| == 1 {
      assert dims[1..] == [];
    }
  }


  // ---------------------------------------------------------------------------
  // The branch cascade, one branch at a time
  // ---------------------------------------------------------------------------

  /** An observation equal to a climatology value gets the percentile of the first such row. */
  lemma KnotLookup(v: real, col: seq<Float>, ref: seq<real>, k: real, i: nat)
    requires |col| == |ref| && i < |col|
    requires col[i] == Some(v)
    requires forall j :: 0 <= j < i ==> col[j] != Some(v)
    ensures PtileAt(Some(v), col, ref, k) == Some(ref[i])
  {
  }

  /** At or above the estimated 100th percentile, an unmatched observation saturates at 1. */
  lemma SaturatesHigh(v: real, col: seq<Float>, ref: seq<real>, k: real)
    requires |col| == |ref| > 0 && Some(v) !in col
    requires Ge(Some(v), P100(col, ref, k))
    ensures PtileAt(Some(v), col, ref, k) == Some(1.0)
  {
  }

  /**
   Between the last sampled percentile and the estimated 100th, an unmatched
   observation takes the upper-tail value, strictly between ref[last] and 1.
   */
  lemma UpperTail(v: real, col: seq<Float>, ref: seq<real>, k: real)
    requires |col| == |ref| > 0 && Some(v) !in col
    requires Gt(Some(v), col[|col| - 1]) && Lt(Some(v), P100(col, ref, k))
    ensures var r, last := PtileAt(Some(v), col, ref, k), |col| - 1;
      && r == Some(UpperTailValue(v, col[last].value, P100(col, ref, k).value, ref[last]))
      && (ref[last] < 1.0 ==> ref[last] < r.value < 1.0)
  {
  }

  /**
   When both the first and the last climatology rows are NaN, no tail can be
   estimated and no bracket exists: every unmatched observation falls through
   to NaN.
   */
  lemma NanEndsFallThrough(v: real, col: seq<Float>, ref: seq<real>, k: real)
    requires |col| == |ref| > 0 && Some(v) !in col
    requires col[0].None? && col[|col| - 1].None?
    ensures PtileAt(Some(v), col, ref, k).None?
  {
  }

  // ---------------------------------------------------------------------------
  // A regular climatology: sorted, NaN-free, percentiles in [0, 1], k >= 1
  // ---------------------------------------------------------------------------

  /**
   The conditions under which the converter behaves as a percentile transform:
   a sorted column without NaN, sorted reference percentiles within [0, 1],
   and a tail ratio of at least one.
   */
  predicate Regular(c: seq<real>, ref: seq<real>, k: real) {
    && |c| == |ref| > 0
    && Ascending(c) && Ascending(ref)
    && 0.0 <= ref[0] && ref[|ref| - 1] <= 1.0
    && 1.0 <= k
  }

  /** Under regular inputs the two estimates enclose the sampled range. */
  lemma TailEstimatesEnclose(c: seq<real>, ref: seq<real>, k: real)
    requires Regular(c, ref, k)
    ensures P0(Lift(c), ref, k).Some? && P100(Lift(c), ref, k).Some?
    ensures P0(Lift(c), ref, k).value <= c[0]
    ensures c[|c| - 1] <= P100(Lift(c), ref, k).value
  {
    var m, col, last := MidIndex(ref), Lift(c), |c| - 1;
    assert col[0] == Some(c[0]) && col[m] == Some(c[m]) && col[last] == Some(c[last]);
    assert c[0] <= c[m] <= c[last];
    ExtrapolateAway(k, c[0], c[m], c[last]);
  }

  /** With a ratio of at least one, the two extrapolated end points lie outside [lo, hi]. */
  lemma ExtrapolateAway(k: real, lo: real, mid: real, hi: real)
    requires 1.0 <= k && lo <= mid <= hi
    ensures Extrapolate(k, Some(lo), Some(mid)).value <= lo
    ensures hi <= Extrapolate(k, Some(hi), Some(mid)).value
  {
    ScaleAway(k, hi - mid);
    ScaleAway(k, lo - mid);
  }

  lemma BelowFirstNotIn(c: seq<real>, v: real)
    requires Ascending(c) && |c| > 0 && v < c[0]
    ensures v !in c
  {
    forall i | 0 <= i < |c| ensures c[i] != v { assert c[0] <= c[i]; }
  }

  lemma AboveLastNotIn(c: seq<real>, v: real)
    requires Ascending(c) && |c| > 0 && c[|c| - 1] < v
    ensures v !in c
  {
    forall i | 0 <= i < |c| ensures c[i] != v { assert c[i] <= c[|c| - 1]; }
  }

  /**
   At or below the estimated 0th percentile an unmatched observation gets
   exactly 0, for any positive tail ratio: on a sorted column the estimated
   100th percentile is never below the median row, so such an observation
   cannot reach either upper branch. For a ratio below one the 0th estimate
   lies inside the sampled range, and values inside it still get 0.
   */
  lemma SaturatesLow(v: real, c: seq<real>, ref: seq<real>, k: real)
    requires |c| == |ref| > 0 && Ascending(c) && 0.0 < k && v !in c
    requires Le(Some(v), P0(Lift(c), ref, k))
    ensures PtileAt(Some(v), Lift(c), ref, k) == Some(0.0)
  {
    LiftMembership(c, v);
    var m, col, last := MidIndex(ref), Lift(c), |c| - 1;
    assert col[0] == Some(c[0]) && col[m] == Some(c[m]) && col[last] == Some(c[last]);
    assert c[0] <= c[m] <= c[last];
    var p0, p100 := P0(col, ref, k).value, P100(col, ref, k).value;
    LowEstimateBelowRange(k, c[0], c[m], c[last], p0, p100, v);
  }

  /**
   An observation at or below the 0th estimate, other than the first value
   itself, lies strictly below the 100th estimate and not above the last
   value.
   */
  lemma LowEstimateBelowRange(k: real, lo: real, mid: real, hi: real, p0: real, p100: real, v: real)
    requires 0.0 < k && lo <= mid <= hi
    requires p0 - mid == k * (lo - mid) && p100 - mid == k * (hi - mid)
    requires v <= p0 && v != lo
    ensures v < p100 && v <= hi
  {
    ScaleKeepsSign(k, hi - mid, p100 - mid);
    ScaleKeepsSign(k, lo - mid, p0 - mid);
  }

  /**
   Between the estimated 0th percentile and the first climatology value, the
   observation takes the lower-tail value: within [0, ref[0]], strictly
   inside when ref[0] > 0.
   */
  lemma LowerTail(v: real, c: seq<real>, ref: seq<real>, k: real)
    requires Regular(c, ref, k)
    requires Gt(Some(v), P0(Lift(c), ref, k)) && v < c[0]
    ensures var r := PtileAt(Some(v), Lift(c), ref, k);
      && r == Some(LowerTailValue(v, c[0], P0(Lift(c), ref, k).value, ref[0]))
      && 0.0 <= r.value <= ref[0]
      && (0.0 < ref[0] ==> 0.0 < r.value < ref[0])
  {
    TailEstimatesEnclose(c, ref, k);
    BelowFirstNotIn(c, v);
    LiftMembership(c, v);
    assert Lift(c)[0] == Some(c[0]) && Lift(c)[|c| - 1] == Some(c[|c| - 1]);
  }

  /**
   Strictly inside the sampled range, an unmatched observation is
   interpolated between rows j-1 and j, where j is the count of climatology
   values not above it; the result stays between their percentiles.
   */
  lemma Interior(v: real, c: seq<real>, ref: seq<real>, k: real)
    requires Regular(c, ref, k) && v !in c
    requires c[0] < v < c[|c| - 1]
    ensures var r, j := PtileAt(Some(v), Lift(c), ref, k), CountAtMost(c, v);
      && 1 <= j < |c|
      && c[j - 1] < v < c[j]
      && r == Some(BracketValue(v, c[j - 1], c[j], ref[j - 1], ref[j]))
      && ref[j - 1] <= r.value <= ref[j]
  {
    var col := Lift(c);
    LiftMembership(c, v);
    TailEstimatesEnclose(c, ref, k);
    assert col[0] == Some(c[0]) && col[|c| - 1] == Some(c[|c| - 1]);
    BisectRightSorted(c, v);
    var j := CountAtMost(c, v);
    assert BisectRight(col, v) == j;
    assert col[j - 1] == Some(c[j - 1]) && col[j] == Some(c[j]);
    assert ref[j - 1] <= ref[j];
  }
}

=== FILE: stats_examples.dfy ===
/**
 The worked example in the documentation of `values_to_ptiles`: nine decile
 rows of a climatology repeated over five locations, one of them with a
 NaN median, and tail ratio 1.343.
 */
module StatsExamples {
  import opened Common
  import opened Bisect
  import opened Stats

  const Deciles: seq<real> := [0.1, 0.2, 0.3, 0.4, 0.5, 0.6, 0.7, 0.8, 0.9]
  const Rows: seq<real> := [15.2, 16.4, 17.8, 18.8, 20.5, 22.3, 23.7, 24.6, 27.6]
  const K: real := 1.343

  /** The climatology column at location 1, whose median row is NaN. */
  const NanMedianColumn: seq<Float> :=
    [Some(15.2), Some(16.4), Some(17.8), Some(18.8), NaN, Some(22.3), Some(23.7), Some(24.6), Some(27.6)]

  /** The 9 x 5 climatology of the example, row by row. */
  function ExampleClimo(): (climo: NdArray<Float>)
    ensures WellFormed(climo) && climo.shape == [9, 5]
  {
    var data := seq(45, n requires 0 <= n < 45 =>
      if n == 4 * 5 + 1 then NaN else Some(Rows[n / 5]));
    assert Product([9, 5]) == 45 by { ProductTwo([9, 5]); }
    NdArray([9, 5], data)
  }

  lemma DecileMedian()
    ensures MidIndex(Deciles) == 4
  {
    var m := MidIndex(Deciles);
    assert Ascending(Deciles);
  }

  /** Every cell of the example climatology: the row's value, except NaN at row 4 of location 1. */
  lemma ExampleAt(i: nat, loc: nat)
    requires i < 9 && loc < 5
    ensures At(ExampleClimo(), i, loc) == if i == 4 && loc == 1 then NaN else Some(Rows[i])
  {
    ProductTwo([9, 5]);
    var n := i * 5 + loc;
    assert n / 5 == i;
    assert (n == 21) == (i == 4 && loc == 1);
    assert At(ExampleClimo(), i, loc) == ExampleClimo().data[n];
  }

  lemma ColumnsOfExample(loc: nat)
    requires loc < 5
    ensures Column(ExampleClimo(), loc) == if loc == 1 then NanMedianColumn else Lift(Rows)
  {
    var col := Column(ExampleClimo(), loc);
    var expected := if loc == 1 then NanMedianColumn else Lift(Rows);
    forall i | 0 <= i < 9
      ensures col[i] == expected[i]
    {
      ExampleAt(i, loc);
    }
  }

  /** 14.9 lies between the estimated 0th percentile 13.3821 and the first row. */
  lemma LowerTailExample()
    ensures var r := PtileAt(Some(14.9), Lift(Rows), Deciles, K);
      r == Some(0.15179 / 1.8179) && 0.08349 < r.value < 0.08350
  {
    DecileMedian();
    assert Ascending(Rows);
    BelowFirstNotIn(Rows, 14.9);
    LiftMembership(Rows, 14.9);
    assert P0(Lift(Rows), Deciles, K) == Some(13.3821);
    assert P100(Lift(Rows), Deciles, K) == Some(30.0353);
  }

  /** With a NaN median both tail estimates are NaN and the bracket below 21.1 is the NaN row. */
  lemma NanMedianExample()
    ensures P0(NanMedianColumn, Deciles, K) == NaN && P100(NanMedianColumn, Deciles, K) == NaN
    ensures BisectRight(NanMedianColumn, 21.1) == 5 && NanMedianColumn[4] == NaN
    ensures PtileAt(Some(21.1), NanMedianColumn, Deciles, K) == Interpolate(NanMedianColumn, Deciles, 21.1) == NaN
  {
    DecileMedian();
    assert Some(21.1) !in NanMedianColumn;
    assert P0(NanMedianColumn, Deciles, K) == NaN;
    assert BisectRight(NanMedianColumn, 21.1) == 5;
  }

  /** 30.2 is beyond the estimated 100th percentile 30.0353. */
  lemma SaturationExample()
    ensures PtileAt(Some(30.2), Lift(Rows), Deciles, K) == Some(1.0)
  {
    DecileMedian();
    assert Ascending(Rows);
    AboveLastNotIn(Rows, 30.2);
    LiftMembership(Rows, 30.2);
  }

  /** 28.4 lies between the last row and the estimated 100th percentile. */
  lemma UpperTailExample()
    ensures var r := PtileAt(Some(28.4), Lift(Rows), Deciles, K);
      r == Some(0.9 + 0.08 / 2.4353) && 0.93285 < r.value < 0.93286
  {
    DecileMedian();
    assert Ascending(Rows);
    AboveLastNotIn(Rows, 28.4);
    LiftMembership(Rows, 28.4);
    assert P100(Lift(Rows), Deciles, K) == Some(30.0353);
  }

  /** 12.12 is below the estimated 0th percentile. */
  lemma LowSaturationExample()
    ensures PtileAt(Some(12.12), Lift(Rows), Deciles, K) == Some(0.0)
  {
    DecileMedian();
    assert Ascending(Rows);
    BelowFirstNotIn(Rows, 12.12);
    LiftMembership(Rows, 12.12);
    assert P0(Lift(Rows), Deciles, K) == Some(13.3821);
  }

  /** The observations of the example, one per location. */
  const Obs: seq<Float> := [Some(14.9), Some(21.1), Some(30.2), Some(28.4), Some(12.12)]

  /** The documented output, with the printed decimals as exact fractions. */
  const Documented: seq<Float> := [Some(0.15179 / 1.8179), NaN, Some(1.0), Some(0.9 + 0.08 / 2.4353), Some(0.0)]

  /** Location by location, the documented percentile is the cascade's result on that location's column. */
  lemma DocumentedAt(loc: nat)
    requires loc < 5
    ensures PtileAt(Obs[loc], Column(ExampleClimo(), loc), Deciles, K) == Documented[loc]
  {
    var col := Column(ExampleClimo(), loc);
    if loc == 0 {
      ColumnsOfExample(0);
      assert col == Lift(Rows) && Obs[0] == Some(14.9);
      LowerTailExample();
    } else if loc == 1 {
      ColumnsOfExample(1);
      assert col == NanMedianColumn && Obs[1] == Some(21.1);
      NanMedianExample();
    } else if loc == 2 {
      ColumnsOfExample(2);
      assert col == Lift(Rows) && Obs[2] == Some(30.2);
      SaturationExample();
    } else if loc == 3 {
      ColumnsOfExample(3);
      assert col == Lift(Rows) && Obs[3] == Some(28.4);
      UpperTailExample();
    } else {
      ColumnsOfExample(4);
      assert col == Lift(Rows) && Obs[4] == Some(12.12);
      LowSaturationExample();
    }
  }

  /** The documented call and its documented output. */
  lemma DocumentedExample()
    ensures ValuesToPtiles(NdArray([5], Obs), ExampleClimo(), NdArray([9], Deciles), K) == Ok(Documented)
  {
    assert Product([5]) == 5 by { ProductOne([5]); }
    assert Product([9]) == 9 by { ProductOne([9]); }
    var r := ValuesToPtiles(NdArray([5], Obs), ExampleClimo(), NdArray([9], Deciles), K);
    assert r.Ok?;
    forall loc | 0 <= loc < 5
      ensures r.value[loc] == Documented[loc]
    {
      DocumentedAt(loc);
    }
    assert |r.value| == 5;
    assert r.value == Documented;
  }
}
